=== FILE: README.md ===
# public-apis-mcp in Dafny

This project models the core of public-apis-mcp. That is an MCP server which answers questions about a catalog of public web APIs, and the core has three parts:

- **Query and filter engine** (`SearchService`):
  - category lookup, exact first and then fuzzy;
  - four filters (keyword, auth, HTTPS, CORS) that scan the catalog in order and stop early at a limit;
  - lookup of an API by name;
  - the sorted category list;
  - the integer statistics (auth, HTTPS and CORS tallies, auth examples);
  - the scope of the random pick.
- **Relevance scorer** (`RecommendationService`). It resolves a project type through a fixed 16-row table into keywords, or splits the description of a wanted feature (the `functionality` argument) into words. It then scores every entry by keyword occurrences, keeps the positive scores, sorts them stably by score and keeps the first `limit`.
- **Sync state machine** (`ApiService`). The state is the catalog and the time of the last successful load. A sync that starts after a successful load reloads at most once an hour unless forced. A sync replaces the whole catalog on success, and leaves everything unchanged on failure.

## The model

The catalog is an ordered sequence of `(key, {count, entries})` pairs (`Catalog.Catalog`). Every scan visits keys in insertion order. `count` is an independent number that nothing checks against the list.

The download and the clock are parameters of the sync functions. `Math.random()` is a fraction `draw / outOf` given to `Search.RandomApi`.

JavaScript's string and array primitives are modelled in their own modules:

- `Text`:
  - `toLowerCase` with ASCII case mapping;
  - `includes` as `Contains`;
  - `split(/\s+/)` as `Tokens`, over the exact `\s` character set, with the whitespace runs it cuts at as `Separators`;
  - the default string order of `sort()` as `StrLe`.
- `Sequences`:
  - `slice(0, limit)` for every integer limit, negative ones included;
  - the stable numeric-comparator `sort`, specified by permutation, order and stability;
  - `sort()` on strings.

Two details of the code shape the model:

- **The early-stop filters with `limit <= 0`.** The filters push a match and then compare the result count with `limit`. This happens inside the entry loop and again after each category.
  - With `limit >= 1` the result is the first `min(limit, #matches)` matches in scan order.
  - With `limit <= 0` a filter returns the first match of the first category, or nothing when that category has none, even if later categories have matches. `Search.ScanResult` states this.
- **`lastSync` after a successful load.** It is the clock reading that `syncRepositoryData` takes (`new Date()`, src/services/api-service.ts:81) once `loadApiData` has returned. `Sync.Fetch` carries it.

## Model

| member | source | states |
|---|---|---|
| Catalog.Lookup | src/types/api.ts:37-39 | `db[key]` is defined exactly for the catalog's keys, and then yields a pair stored in the catalog. With distinct keys it is the value stored under that key. |
| Catalog.AllEntries | src/services/search-service.ts:408-409 | The nested scan over categories and their lists visits exactly the entries stored in some category. |
| Catalog.DeclaredTotal | src/services/search-service.ts:396-399 | The reported total sums the declared `count` fields; see the three lemmas below for how it relates to the entries. |
| Catalog.DeclaredTotalSplits | src/services/search-service.ts:396-399 | The reported total is the number of entries plus the summed error of the `count` fields. |
| Catalog.DeclaredTotalCountsEntries | src/services/search-service.ts:396-399 | When every category's `count` equals its list length, the reported total (sum of `count` fields) equals the number of entries. |
| Catalog.DeclaredTotalMayDisagree | src/services/search-service.ts:396-399 | When every category but one has an honest `count`, the reported total differs from the number of entries by exactly that category's error. So it differs exactly when that count is not its list length. |
| Text.Lower | src/services/search-service.ts:32 | `toLowerCase` keeps the length, leaves no ASCII capital, maps each capital to its small letter and keeps every other character. |
| Text.Contains | src/services/recommendation-service.ts:72 | `includes` only finds strings no longer than the text. |
| Text.ContainsIffOccurs | src/services/search-service.ts:31-33 | `s.includes(t)` holds exactly when some index of `s` starts a copy of `t`. |
| Text.TokensHaveNoSpace | src/services/recommendation-service.ts:130 | No piece of `split(/\s+/)` contains a whitespace character. |
| Text.TokensRoundTrip | src/services/recommendation-service.ts:130 | The pieces of `split(/\s+/)`, joined in order, spell the input with its whitespace removed. |
| Text.Tokens | src/services/recommendation-service.ts:130 | `split(/\s+/)` always yields at least one piece. |
| Text.SeparatorsAreRuns | src/services/recommendation-service.ts:130 | There is one whitespace run between each two neighbouring pieces, and each is a non-empty run of whitespace. |
| Text.TokensRejoin | src/services/recommendation-service.ts:130 | Putting each cut run back between the pieces gives back the input exactly. |
| Text.InnerTokensNonEmpty | src/services/recommendation-service.ts:130 | Only the first and the last piece can be empty, from leading or trailing whitespace. |
| Sequences.Slice | src/services/search-service.ts:63 | `slice(0, limit)` is a prefix of the list. Its length is `min(limit, n)` for a non-negative limit and `max(n + limit, 0)` for a negative one. |
| Sequences.SortDesc | src/services/recommendation-service.ts:85 | The comparator sort returns a permutation of its input, ordered by non-increasing key. For every key value, the elements carrying it keep their input order (stability). |
| Sequences.SortStrings | src/services/search-service.ts:293 | `keys.sort()` returns a permutation of the keys in lexicographic order. |
| Search.KeyMatches | src/services/search-service.ts:32 | The fuzzy test: the lowercased key contains the lowercased query. |
| Search.FuzzyIndex | src/services/search-service.ts:30-33 | The fuzzy match is the first key in insertion order whose lowercase contains the lowercased query. There is none exactly when no key does. |
| Search.SearchByCategory | src/services/search-service.ts:21-76 | An exact key is served exactly when the query is a key. Otherwise the first containing key is served, exactly when one exists. Otherwise every key is listed. A hit reports the `count` stored under its key and shows `slice(0, limit)` of that key's list: a prefix of length `min(limit, n)` for `limit >= 0` and `max(n + limit, 0)` otherwise. |
| Search.ExactHitShowsPrefix | src/services/search-service.ts:63-69 | With distinct keys, querying an existing key shows exactly its first `min(limit, n)` stored entries and its stored count. |
| Search.EmptyQuerySelectsFirstCategory | src/services/search-service.ts:30-36 | An empty query that is not itself a key selects the first category, since every key contains the empty string. |
| Search.Holds | src/services/search-service.ts:87-93 | The filter tests: a keyword is contained in the name or the description, ignoring ASCII case; auth and CORS compare equal ignoring case (lines 139 and 220); HTTPS compares the flag (line 184). |
| Search.Matching | src/services/search-service.ts:89-97 | The matches of a list, in list order, are never more than the list. |
| Search.MatchingMembers | src/services/search-service.ts:89-97 | The scan's matches are exactly the catalog entries that pass the filter's test. |
| Search.ScanResult | src/services/search-service.ts:89-100 | The early-stop result is a prefix of all matches in scan order. With `limit >= 1` it has `min(limit, #matches)` of them. With `limit <= 0` it has one exactly when the first category has a match, and none otherwise. |
| Search.ScanCategory | src/services/search-service.ts:90-99 | The inner loop over one category: it either stops at the limit with exactly the early-stop result, or runs through the category with the matches gathered so far, still under the limit. |
| Search.Scan | src/services/search-service.ts:89-100 | The nested loops with push-then-check breaks compute exactly the declarative early-stop result. |
| Search.SearchByKeyword | src/services/search-service.ts:81-125 | The keyword filter answers "not found" exactly when the early-stop result is empty, and otherwise lists that result. |
| Search.FilterByAuth | src/services/search-service.ts:130-170 | The auth filter answers "not found" exactly when the early-stop result is empty, and otherwise lists that result. |
| Search.FilterByHttps | src/services/search-service.ts:175-206 | The HTTPS filter always answers with the early-stop result list, even when it is empty. |
| Search.FilterByCors | src/services/search-service.ts:211-240 | The CORS filter always answers with the early-stop result list, even when it is empty. |
| Search.KeywordIgnoresCategoryAndLink | src/services/search-service.ts:91-94 | Changing an entry's category or link never changes whether it matches a keyword. |
| Search.ScanResultSound | src/services/search-service.ts:137-145 | Every entry a filter returns comes from the catalog and passes the filter's test. |
| Search.KeywordFindsKnownEntry | src/services/search-service.ts:87-96 | An entry whose lowercased name contains the lowercased keyword is returned whenever the limit leaves room for every match. |
| Search.NoMatchYieldsNothing | src/services/search-service.ts:102-111 | With no matching entry anywhere, the result is empty, which the keyword and auth filters report as "not found". |
| Search.NamedAs | src/services/search-service.ts:250 | The detail test: the lowercased name equals the lowercased query. |
| Search.FindNamed | src/services/search-service.ts:249-251 | `find` returns the first entry whose lowercased name equals the lowercased query, and nothing exactly when no entry matches. |
| Search.Details | src/services/search-service.ts:245-273 | The detail lookup returns the first entry in category-then-list order with that name ignoring case, and "not found" exactly when no entry has it. |
| Search.CountOrZero | src/services/search-service.ts:306-308 | The stored `count` of a key, and 0 for a missing one (`?.count` falling back to 0). |
| Search.Rows | src/services/search-service.ts:306-308 | The category rows list the given keys in order, each paired with the `count` of a category stored under that key. |
| Search.CategoryList | src/services/search-service.ts:278-319 | The list is "no categories" exactly for an empty catalog. Otherwise it holds every key once per occurrence, in sorted order, each paired with the `count` stored under it. |
| Search.RandomScope | src/services/search-service.ts:339-361 | An empty category name draws from every entry. A non-empty name is missing exactly when it is not a key, and otherwise draws from that key's list. |
| Search.ScaledIndexInRange | src/services/search-service.ts:375 | `floor(u * n)` with `u` in `[0, 1)` is a valid index below `n`. |
| Search.RandomApi | src/services/search-service.ts:363-376 | The pick reports a missing category or an empty scope exactly in those cases, and otherwise returns an entry of the scope. |
| Search.EveryScopeEntryReachable | src/services/search-service.ts:375-376 | Every entry of a non-empty scope is picked for some value of the random fraction. |
| Statistics.Bump | src/services/search-service.ts:411-414 | Counting one key raises its count by one, or appends it with count 1 when new. Every other key keeps its place and count. |
| Statistics.BumpKeepsDistinct | src/services/search-service.ts:411-414 | Counting a key never creates a second entry for it: keys stay distinct. |
| Statistics.BumpAddsOne | src/services/search-service.ts:411-414 | Counting one key adds exactly one to the sum of the counts. |
| Statistics.TallyOf | src/services/search-service.ts:408-414 | Counting keys one by one gives distinct keys whose counts add up to the number of keys (the full description is `TallyOfSpec`). |
| Statistics.TallyOfSpec | src/services/search-service.ts:408-427 | The auth (or CORS) tally holds each value once, counting its occurrences among the scanned entries, in order of first occurrence. |
| Statistics.SortTally | src/services/search-service.ts:429-430 | `Object.entries(...).sort((a, b) => b[1] - a[1])`: a permutation of the tally with the same total, ordered by non-increasing count, equal counts kept in first-seen order. |
| Statistics.TotalPermutation | src/services/search-service.ts:429-430 | Reordering a tally by count does not change the sum of its counts. |
| Statistics.HttpsCount | src/services/search-service.ts:417-419 | The HTTPS counter never exceeds the number of scanned entries. |
| Statistics.HttpsCountIsMatches | src/services/search-service.ts:417-419 | `httpsCount` equals the number of entries the HTTPS filter (with `true`) matches. |
| Statistics.ApiStatistics | src/services/search-service.ts:393-462 | The total is the sum of `count` fields. The auth and CORS tallies each hold every value once with its number of entries, sum to the number of scanned entries, and are ordered by non-increasing count with equal counts in first-seen order. `httpsCount` is the number of HTTPS entries. |
| Statistics.Grow | src/services/search-service.ts:478-483 | One more entry of a group: same auth type, count up by one, earlier examples kept, and the name recorded exactly when fewer than five were kept, so a group never holds more than five. |
| Statistics.Record | src/services/search-service.ts:472-484 | One analysed entry raises its auth group's count and appends its name only while fewer than five are kept. A new auth type becomes a new last group with one entry. Every other group is unchanged. |
| Statistics.RecordTallies | src/services/search-service.ts:472-478 | Seen as (auth, count) pairs, analysing one entry is counting its auth type in an ordered tally. |
| Statistics.Groups | src/services/search-service.ts:472-485 | Seen as (auth, count) pairs, the auth groups are the auth tally of the scanned entries. |
| Statistics.GroupsExamples | src/services/search-service.ts:480-483 | Each auth group's examples are the first (at most five) names with that auth type, in scan order. |
| Statistics.GroupsDescribeAuths | src/services/search-service.ts:472-485 | Every auth group counts exactly the entries of its auth type and keeps the first five of their names. |
| Statistics.GroupsCoverAuths | src/services/search-service.ts:472-476 | There is an auth group for exactly the auth types that occur in the catalog. |
| Statistics.AuthAnalysis | src/services/search-service.ts:467-500 | The analysis is a permutation of the groups, ordered by non-increasing count with ties in first-seen order. Each group has at most five examples, and every auth type appears. |
| Recommendation.TableShape | src/services/recommendation-service.ts:27-44 | The label-to-keywords table has sixteen rows, in declaration order, with distinct labels, and every row lists at least one keyword. |
| Recommendation.RowMatches | src/services/recommendation-service.ts:49 | A row applies when its lowercased label contains the lowercased input or is contained in it. |
| Recommendation.TableKeywords | src/services/recommendation-service.ts:47-52 | A keyword is collected exactly when some row whose label contains, or is contained in, the input (ignoring case) lists it. |
| Recommendation.EmptyInputSelectsEveryRow | src/services/recommendation-service.ts:48-51 | An empty project type collects every row's keywords, in table order. |
| Recommendation.ResolveKeywords | src/services/recommendation-service.ts:47-60 | The keywords are the applying rows' keywords followed by the requirements. They become exactly `[projectType]` when no row applies and no requirement is given, and are never empty. |
| Recommendation.SearchText | src/services/recommendation-service.ts:68 | The scored text is the lowercased name, description and category joined by single spaces (the same text at line 127). |
| Recommendation.Hits | src/services/recommendation-service.ts:71-75 | The score counts keyword positions, so it is at most the number of keywords. |
| Recommendation.HitsCountsPositions | src/services/recommendation-service.ts:71-75 | The score is the number of keyword positions whose lowercased keyword occurs in the lowercased text, at most the list length. |
| Recommendation.RepeatedKeywordsScoreTwice | src/services/recommendation-service.ts:71-75 | A keyword list repeated twice scores twice as much: duplicates count once per occurrence. |
| Recommendation.LongTokens | src/services/recommendation-service.ts:132 | The words that can score are those longer than two characters; there are never more of them than words. |
| Recommendation.TokenHits | src/services/recommendation-service.ts:130-135 | The word score counts words, so it is at most the number of words. |
| Recommendation.TokenHitsAreHits | src/services/recommendation-service.ts:131-135 | On lowercase words, the word score equals the keyword score of the words longer than two characters. Short words never score. |
| Recommendation.WordScoreIsKeywordScore | src/services/recommendation-service.ts:119-135 | The alternatives score of an entry is the keyword score of the long words of `functionality`, taken from its lowercased split. |
| Recommendation.Candidates | src/services/recommendation-service.ts:65-82 | The scan keeps at most one candidate per entry. |
| Recommendation.CandidatesSound | src/services/recommendation-service.ts:78-80 | Every kept candidate is a scanned entry with its own score, which is at least 1. |
| Recommendation.CandidatesComplete | src/services/recommendation-service.ts:78-80 | Every scanned entry with a positive score is kept. |
| Recommendation.CandidatesAppend | src/services/recommendation-service.ts:65-82 | Candidates keep scan order: those of two concatenated scans are those of each, in turn. |
| Recommendation.Rank | src/services/recommendation-service.ts:85-86 | The ranked list has as many items as `slice` keeps and is taken from the candidates. It is sorted by non-increasing score, no left-out candidate outscores a kept one, and equal scores stay in scan order. |
| Recommendation.Recommend | src/services/recommendation-service.ts:21-111 | Nothing is recommended exactly when `slice` keeps no candidate. Otherwise the items are the top-ranked candidates, each a catalog entry whose score is its keyword hits, between 1 and the number of keywords. |
| Recommendation.Alternatives | src/services/recommendation-service.ts:116-171 | As for recommendations, with the long words of the lowercased `functionality` argument as keywords. Each score lies between 1 and their number. |
| Recommendation.Reply | src/services/recommendation-service.ts:88-95 | The reply is the not-found text exactly when `slice` kept nothing, and otherwise carries the kept items unchanged (the same branch at lines 148-155). |
| Recommendation.NoScoreFindsNothing | src/services/recommendation-service.ts:88-95 | If no entry scores, the reply is the explanatory text, not an error. |
| Recommendation.PositiveScoreIsRecommended | src/services/recommendation-service.ts:78-95 | A catalog entry with a positive score guarantees a ranked reply for every positive limit. |
| Recommendation.OnlyEntryIsRecommended | src/services/recommendation-service.ts:78-95 | In a one-entry catalog, an entry with a positive score is the first recommendation. |
| Recommendation.WeatherIsRecommended | src/services/recommendation-service.ts:27-86 | The project type "天气应用" gives a recommendation for any catalog holding an entry named "WeatherAPI", through the first table row's keyword "weather". With that entry alone, it comes first. |
| Sync.Fresh | src/services/api-service.ts:68 | Data is fresh when a load happened and less than 3,600,000 ms have passed since it. |
| Sync.SyncRepository | src/services/api-service.ts:65-103 | The download is attempted exactly when forced, never synced, or the last load is at least an hour old. Otherwise success and nothing changes. A successful download replaces the catalog wholesale and stamps it. A failed one keeps the state and reports failure. The state is never partially updated. |
| Sync.EnsureSynced | src/services/api-service.ts:34-39 | A non-forced sync is attempted exactly when the service never synced or holds no category. Otherwise nothing changes. |
| Sync.FirstUseDownloads | src/services/api-service.ts:9-39 | A new service (empty catalog, never synced) downloads on first use whatever the clock says, then holds what arrived, or stays empty and unsynced when the download fails. |
| Sync.FreshSyncIsNoOp | src/services/api-service.ts:68-74 | Within the hour an unforced sync downloads nothing, keeps the state, and reports success with "already fresh". |
| Sync.StaleAfterExactlyOneHour | src/services/api-service.ts:68 | Exactly 3,600,000 ms after the last load the data counts as stale and is downloaded again. |
| Sync.ForcedSyncFetches | src/services/api-service.ts:68-77 | A forced sync downloads regardless of age. |
| Sync.AtMostOneLoadPerHour | src/services/api-service.ts:68-81 | After a successful load, an unforced sync within the hour downloads nothing and keeps the state. |
| Sync.EmptyCatalogStaysEmpty | src/services/api-service.ts:34-74 | After loading an empty catalog, `ensureDataSynced` within the hour attempts a sync that finds the data fresh. The catalog stays empty. |
| Sync.RunSyncs | src/services/api-service.ts:65-95 | Over any sequence of syncs, the final state is the initial one or exactly one download's catalog and time stamp. Failed downloads alone never change it. There are at least as many downloads as forced calls and at most one per call. |

## Left out

- The network: `loadApiData` (an HTTP GET via axios) becomes the `Fetch` parameter: a catalog with the clock reading taken once it returned, or `Failed`.
- The clock: `Date.now()` is the `now` parameter, in whole milliseconds.
- Overlapping calls: each sync is modelled as finishing before the next starts. Tool calls are not serialised, so two calls that overlap a pending download both see stale data and both download.
- Malformed downloads:
  - a downloaded object whose values lack `count` makes the total `NaN`;
  - one whose values are `null` makes the sum throw after the catalog was already replaced, which reports failure with the new state.

  The model types downloads as catalogs, so neither case arises.
- `syncRepositoryData`'s outer `try`/`catch` and `getCategoryList`'s "database not initialised" and `catch` branches. The model's catalog always exists and nothing in the modelled code can throw.
- Randomness: `getRandomAPI` draws `Math.random()`, here a fraction `draw / outOf` in `[0, 1)`. `checkNewAPIs` (a random shuffle and a floating-point `ceil(n * 0.05)`) is not modelled, because its output is random by design and carries no checkable property beyond its size.
- Floating point: the percentages of `getAPIStatistics` and `analyzeAuthRequirements`, and the `NaN` they show for a zero total, are not modelled. Only the integer counts are.
- Text rendering: the Markdown text of every reply (the formatter service) and the per-language code templates (the code-generation service) are not modelled. Replies are modelled as datatypes carrying the data the text shows.
- Tool dispatch: argument coercions such as `Number(args.limit || 10)` and `httpsOnly !== false`, non-integer or `NaN` limits, and the MCP error classes are not modelled. `limit` is an integer.
- Unicode: `toLowerCase` maps only ASCII `A`-`Z`. String length and order are over code points, which differs from UTF-16 code units only for characters outside the Basic Multilingual Plane. That affects the word-length test in `findAlternativeAPIs` and the order of `sort()`.
- JavaScript objects: keys enumerate in insertion order. The engine rule that lists integer-like keys first is not modelled, and neither are keys inherited from `Object.prototype` (such as `constructor`).
- The zod schemas and unused interfaces of the type definitions.
- Search.CategoryList: states each row's count as the `count` of a category with that key. With duplicate keys, which a JavaScript object cannot have, this is weaker than "the first such category".
- Catalog.Lookup: states the stored value only for catalogs with distinct keys, which is every catalog the service can hold.

=== FILE: catalog.dfy ===
/** The in-memory catalog (`APIDatabase` in src/types/api.ts): category name
    to `{count, entries}`, visited in insertion order by every scan. */
module Catalog {
  import opened Wrappers

  /** One API record (`APIEntry`). `auth` and `cors` are free strings, not
      enumerations: whatever the remote document holds. */
  datatype Entry = Entry(
    api: string,
    description: string,
    auth: string,
    https: bool,
    cors: string,
    link: string,
    category: string)

  /** `APIData`: the declared `count` is an independent number that nothing
      checks against `|entries|`. */
  datatype CategoryData = CategoryData(count: int, entries: seq<Entry>)

  /** One key of the catalog with its value. */
  datatype Category = Category(key: string, data: CategoryData)

  /** The categories in insertion order (`Object.keys` / `Object.values`). */
  type Catalog = seq<Category>

  /** `Object.keys(apiDatabase)`. */
  function Keys(cat: Catalog): seq<string>
  {
    seq(|cat|, i requires 0 <= i < |cat| => cat[i].key)
  }

  /** Keys of a JavaScript object are distinct. */
  ghost predicate UniqueKeys(cat: Catalog)
  {
    forall i, j | 0 <= i < j < |cat| :: cat[i].key != cat[j].key
  }

  /** `apiDatabase[key]`: the value stored under `key`, if any. */
  function Lookup(cat: Catalog, key: string): (r: Option<CategoryData>)
    ensures r.Some? <==> key in Keys(cat)
    ensures r.Some? ==> Category(key, r.value) in cat
    ensures UniqueKeys(cat) ==>
      forall i | 0 <= i < |cat| && cat[i].key == key :: r == Some(cat[i].data)
  {
    if cat == [] then None
    else if cat[0].key == key then
      assert Keys(cat)[0] == key;
      Some(cat[0].data)
    else
      assert Keys(cat) == [cat[0].key] + Keys(cat[1..]);
      Lookup(cat[1..], key)
  }

  /** Every entry of every category, categories in insertion order and
      entries in list order: the order of the nested `for` loops. */
  function AllEntries(cat: Catalog): (r: seq<Entry>)
    ensures forall e :: e in r <==> exists i | 0 <= i < |cat| :: e in cat[i].data.entries
  {
    if cat == [] then [] else cat[0].data.entries + AllEntries(cat[1..])
  }

  lemma {:induction false} AllEntriesAppend(a: Catalog, b: Catalog)
    ensures AllEntries(a + b) == AllEntries(a) + AllEntries(b)
    decreases |a|
  {
    if a == [] {
      assert a + b == b;
    } else {
      assert (a + b)[0] == a[0];
      assert (a + b)[1..] == a[1..] + b;
      AllEntriesAppend(a[1..], b);
    }
  }

  /** `Object.values(apiDatabase).reduce((sum, data) => sum + data.count, 0)`:
      the declared total, a sum of `count` fields rather than of entries. */
  function DeclaredTotal(cat: Catalog): int
  {
    if cat == [] then 0 else cat[0].data.count + DeclaredTotal(cat[1..])
  }

  /** Every category's `count` equals the length of its list. The source
      never checks this. */
  ghost predicate CountsAgree(cat: Catalog)
  {
    forall i | 0 <= i < |cat| :: cat[i].data.count == |cat[i].data.entries|
  }

  /** How far the declared counts overshoot the lists, summed over the
      categories (negative when they fall short). */
  function Excess(cat: Catalog): int
  {
    if cat == [] then 0 else (cat[0].data.count - |cat[0].data.entries|) + Excess(cat[1..])
  }

  /** The reported total is the number of entries plus the excess. */
  lemma {:induction false} DeclaredTotalSplits(cat: Catalog)
    ensures DeclaredTotal(cat) == |AllEntries(cat)| + Excess(cat)
  {
    if cat != [] {
      DeclaredTotalSplits(cat[1..]);
    }
  }

  /** Honest counts leave no excess. */
  lemma {:induction false} NoExcess(cat: Catalog)
    requires CountsAgree(cat)
    ensures Excess(cat) == 0
  {
    if cat != [] {
      assert CountsAgree(cat[1..]) by {
        forall i | 0 <= i < |cat[1..]|
          ensures cat[1..][i].data.count == |cat[1..][i].data.entries|
        {
          assert cat[1..][i] == cat[i + 1];
        }
      }
      NoExcess(cat[1..]);
    }
  }

  /** When every count is honest, the declared total is the number of
      entries. */
  lemma {:induction false} DeclaredTotalCountsEntries(cat: Catalog)
    requires CountsAgree(cat)
    ensures DeclaredTotal(cat) == |AllEntries(cat)|
  {
    DeclaredTotalSplits(cat);
    NoExcess(cat);
  }

  /** The excess of a catalog whose only dishonest count is at `i` is that
      count's own error. */
  lemma {:induction false} ExcessOfOne(cat: Catalog, i: nat)
    requires i < |cat|
    requires forall j | 0 <= j < |cat| && j != i :: cat[j].data.count == |cat[j].data.entries|
    ensures Excess(cat) == cat[i].data.count - |cat[i].data.entries|
  {
    if i == 0 {
      assert CountsAgree(cat[1..]) by {
        forall j | 0 <= j < |cat[1..]|
          ensures cat[1..][j].data.count == |cat[1..][j].data.entries|
        {
          assert cat[1..][j] == cat[j + 1];
        }
      }
      NoExcess(cat[1..]);
    } else {
      forall j | 0 <= j < |cat[1..]| && j != i - 1
        ensures cat[1..][j].data.count == |cat[1..][j].data.entries|
      {
        assert cat[1..][j] == cat[j + 1];
      }
      ExcessOfOne(cat[1..], i - 1);
    }
  }

  /** One dishonest count is enough to make the reported total differ from
      the number of entries, by exactly that count's error. */
  lemma DeclaredTotalMayDisagree(cat: Catalog, i: nat)
    requires i < |cat|
    requires forall j | 0 <= j < |cat| && j != i :: cat[j].data.count == |cat[j].data.entries|
    ensures DeclaredTotal(cat) - |AllEntries(cat)| == cat[i].data.count - |cat[i].data.entries|
    ensures DeclaredTotal(cat) == |AllEntries(cat)| <==> cat[i].data.count == |cat[i].data.entries|
  {
    DeclaredTotalSplits(cat);
    ExcessOfOne(cat, i);
  }
}

=== FILE: recommendation.dfy ===
/** The relevance scorer of src/services/recommendation-service.ts:
    `recommendAPIsForProject` (a project type resolved through a fixed table
    into keywords) and `findAlternativeAPIs` (the words of a description).
    Both score every entry in scan order, keep the positive scores, sort them
    stably by non-increasing score and keep the first `limit`. */
module Recommendation {
  import opened Wrappers
  import opened Text
  import opened Catalog
  import opened Sequences

  // ---------------------------------------------------------------------
  // The project-type table
  // ---------------------------------------------------------------------

  /** One row of `keywordMappings`: a label and its keywords. */
  datatype Row = Row(name: string, keywords: seq<string>)

  /** The sixteen rows of `keywordMappings`, in declaration order. */
  const Table: seq<Row> := [
    Row("天气应用", ["weather", "forecast", "climate", "temperature"]),
    Row("社交媒体", ["social", "media", "twitter", "facebook", "instagram"]),
    Row("电商", ["commerce", "product", "shop", "payment", "ecommerce"]),
    Row("新闻应用", ["news", "article", "media", "rss"]),
    Row("游戏", ["game", "score", "player", "entertainment"]),
    Row("教育", ["education", "learning", "school", "course", "academic"]),
    Row("健康", ["health", "fitness", "medical", "nutrition"]),
    Row("旅行", ["travel", "flight", "hotel", "booking", "destination"]),
    Row("金融", ["finance", "banking", "currency", "stock", "payment"]),
    Row("音乐", ["music", "audio", "song", "artist", "playlist"]),
    Row("视频", ["video", "streaming", "movie", "film", "tv"]),
    Row("地图", ["map", "location", "geocoding", "navigation", "place"]),
    Row("聊天机器人", ["chat", "bot", "ai", "message", "conversation"]),
    Row("数据分析", ["data", "analytics", "statistics", "visualization"]),
    Row("开发工具", ["development", "tool", "code", "programming"]),
    Row("安全", ["security", "authentication", "encryption", "protection"])
  ]

  /** A row applies when its lowercased label contains the lowercased input
      or is contained in it. */
  predicate RowMatches(name: string, input: string)
  {
    Contains(Lower(name), Lower(input)) || Contains(Lower(input), Lower(name))
  }

  /** The keywords of every row, in table order. */
  function AllKeywords(rows: seq<Row>): seq<string>
  {
    if rows == [] then [] else rows[0].keywords + AllKeywords(rows[1..])
  }

  /** The keywords of the rows that apply to `input`, concatenated in table
      order. A keyword is collected exactly when some applying row lists
      it. */
  function TableKeywords(rows: seq<Row>, input: string): (r: seq<string>)
    ensures forall w :: w in r <==>
      exists i | 0 <= i < |rows| :: RowMatches(rows[i].name, input) && w in rows[i].keywords
  {
    if rows == [] then []
    else
      var rest := TableKeywords(rows[1..], input);
      assert forall i | 0 < i < |rows| :: rows[i] == rows[1..][i - 1];
      (if RowMatches(rows[0].name, input) then rows[0].keywords else []) + rest
  }

  /** Every label contains the empty string, so an empty project type
      collects the whole table. */
  lemma {:induction false} EmptyInputSelectsEveryRow(rows: seq<Row>)
    ensures TableKeywords(rows, "") == AllKeywords(rows)
  {
    if rows != [] {
      EmptyIsContained(Lower(rows[0].name));
      EmptyInputSelectsEveryRow(rows[1..]);
    }
  }

  /** The table has sixteen rows with distinct labels, as the keys of an
      object literal are, and every row lists keywords. */
  lemma TableShape()
    ensures |Table| == 16
    ensures forall i, j | 0 <= i < j < |Table| :: Table[i].name != Table[j].name
    ensures forall i | 0 <= i < |Table| :: Table[i].keywords != []
  {
    forall i, j | 0 <= i < j < |Table|
      ensures Table[i].name != Table[j].name
    {
      assert Table[i].name[0] != Table[j].name[0];
    }
  }

  /** The keyword list: the table's keywords, then the caller's
      requirements, and `[projectType]` when both are empty. The fallback
      is taken exactly when no row applies and no requirement is given. */
  function ResolveKeywords(projectType: string, requirements: seq<string>): (r: seq<string>)
    ensures r != []
    ensures (exists i | 0 <= i < |Table| :: RowMatches(Table[i].name, projectType)) || requirements != [] ==>
              r == TableKeywords(Table, projectType) + requirements
    ensures (forall i | 0 <= i < |Table| :: !RowMatches(Table[i].name, projectType)) && requirements == [] ==>
              r == [projectType]
  {
    var kws := TableKeywords(Table, projectType) + requirements;
    AppliedRowContributes(projectType);
    if kws == [] then [projectType] else kws
  }

  /** A row that applies contributes at least one keyword. */
  lemma AppliedRowContributes(projectType: string)
    ensures (exists i | 0 <= i < |Table| :: RowMatches(Table[i].name, projectType)) <==>
              TableKeywords(Table, projectType) != []
  {
    var t := TableKeywords(Table, projectType);
    if exists i | 0 <= i < |Table| :: RowMatches(Table[i].name, projectType) {
      var i :| 0 <= i < |Table| && RowMatches(Table[i].name, projectType);
      TableShape();
      assert Table[i].keywords[0] in t;
    }
    if t != [] {
      assert t[0] in t;
    }
  }

  // ---------------------------------------------------------------------
  // Scoring
  // ---------------------------------------------------------------------

  /** `${API} ${Description} ${Category}`, lowercased. */
  function SearchText(e: Entry): string
  {
    Lower(e.api + " " + e.description + " " + e.category)
  }

  /** The keyword score: one point per position of `kws` whose lowercased
      keyword occurs in `text`. */
  function Hits(text: string, kws: seq<string>): (n: nat)
    ensures n <= |kws|
  {
    if kws == [] then 0
    else Hits(text, kws[..|kws| - 1]) + (if Contains(text, Lower(kws[|kws| - 1])) then 1 else 0)
  }

  /** The positions of `kws` whose keyword occurs in `text`. */
  function HitPositions(text: string, kws: seq<string>): set<nat>
  {
    set i: nat | i < |kws| && Contains(text, Lower(kws[i]))
  }

  /** The score counts matching positions, not distinct keywords. */
  lemma {:induction false} HitsCountsPositions(text: string, kws: seq<string>)
    ensures Hits(text, kws) == |HitPositions(text, kws)|
  {
    if kws != [] {
      var n := |kws| - 1;
      var front := kws[..n];
      HitsCountsPositions(text, front);
      var last: set<nat> := if Contains(text, Lower(kws[n])) then {n} else {};
      assert HitPositions(text, kws) == HitPositions(text, front) + last;
      assert n !in HitPositions(text, front);
    }
  }

  lemma {:induction false} HitsAppend(text: string, a: seq<string>, b: seq<string>)
    ensures Hits(text, a + b) == Hits(text, a) + Hits(text, b)
    decreases |b|
  {
    if b == [] {
      assert a + b == a;
    } else {
      var n := |b| - 1;
      assert (a + b)[..|a + b| - 1] == a + b[..n];
      HitsAppend(text, a, b[..n]);
    }
  }

  /** A keyword listed twice scores twice. */
  lemma RepeatedKeywordsScoreTwice(text: string, kws: seq<string>)
    ensures Hits(text, kws + kws) == 2 * Hits(text, kws)
  {
    HitsAppend(text, kws, kws);
  }

  /** The whitespace-separated words of `functionality.toLowerCase()` that
      are longer than two characters, with repetitions. */
  function LongTokens(ts: seq<string>): (r: seq<string>)
    ensures |r| <= |ts|
  {
    if ts == [] then []
    else LongTokens(ts[..|ts| - 1]) + (if |ts[|ts| - 1]| > 2 then [ts[|ts| - 1]] else [])
  }

  /** The word score of `findAlternativeAPIs`: one point per word longer
      than two characters that occurs in `text`. */
  function TokenHits(text: string, ts: seq<string>): (n: nat)
    ensures n <= |ts|
  {
    if ts == [] then 0
    else
      var t := ts[|ts| - 1];
      TokenHits(text, ts[..|ts| - 1]) + (if |t| > 2 && Contains(text, t) then 1 else 0)
  }

  /** `s` has no upper-case ASCII letter. */
  ghost predicate IsLower(s: string)
  {
    forall i | 0 <= i < |s| :: LowerChar(s[i]) == s[i]
  }

  lemma {:induction false} TokensOfLowerAreLower(s: string)
    requires IsLower(s)
    ensures forall k | 0 <= k < |Tokens(s)| :: IsLower(Tokens(s)[k])
    decreases |s|
  {
    var w := WordLength(s);
    if w < |s| {
      var rest := s[w..];
      var tail := rest[SpaceLength(rest)..];
      TokensOfLowerAreLower(tail);
      assert Tokens(s) == [s[..w]] + Tokens(tail);
    }
  }

  /** On lowercase words, the word score is the keyword score of the long
      words: short words never count, and each long word counts once per
      occurrence. */
  lemma {:induction false} TokenHitsAreHits(text: string, ts: seq<string>)
    requires forall k | 0 <= k < |ts| :: IsLower(ts[k])
    ensures TokenHits(text, ts) == Hits(text, LongTokens(ts))
  {
    if ts != [] {
      var n := |ts| - 1;
      var t := ts[n];
      var front := ts[..n];
      assert forall k | 0 <= k < |front| :: front[k] == ts[k];
      TokenHitsAreHits(text, front);
      assert TokenHits(text, ts) == TokenHits(text, front) + (if |t| > 2 && Contains(text, t) then 1 else 0);
      if |t| > 2 {
        LowerOfLower(t);
        assert LongTokens(ts) == LongTokens(front) + [t];
        HitsAppend(text, LongTokens(front), [t]);
        HitsSingle(text, t);
      } else {
        assert LongTokens(ts) == LongTokens(front);
      }
    }
  }

  lemma LowerOfLower(t: string)
    requires IsLower(t)
    ensures Lower(t) == t
  {
  }

  lemma HitsSingle(text: string, w: string)
    ensures Hits(text, [w]) == if Contains(text, Lower(w)) then 1 else 0
  {
    assert [w][..0] == [];
  }

  /** How an entry is scored: by a keyword list or by description words. */
  datatype Scorer = ByKeywords(kws: seq<string>) | ByWords(words: seq<string>)

  function ScoreOf(sc: Scorer, e: Entry): nat
  {
    match sc
    case ByKeywords(kws) => Hits(SearchText(e), kws)
    case ByWords(ws) => TokenHits(SearchText(e), ws)
  }

  /** An entry with its score (`{ api, score }`). */
  datatype Scored = Scored(entry: Entry, score: int)

  /** What one scanned entry adds to the candidates. */
  function Kept(sc: Scorer, e: Entry): (r: seq<Scored>)
    ensures |r| <= 1
  {
    if ScoreOf(sc, e) > 0 then [Scored(e, ScoreOf(sc, e))] else []
  }

  /** `scoredApis`: the entries with a positive score, in scan order. */
  function Candidates(es: seq<Entry>, sc: Scorer): (r: seq<Scored>)
    ensures |r| <= |es|
  {
    if es == [] then []
    else Candidates(es[..|es| - 1], sc) + Kept(sc, es[|es| - 1])
  }

  /** Every candidate is an entry of the scan with its own, positive,
      score. */
  lemma {:induction false} CandidatesSound(es: seq<Entry>, sc: Scorer)
    ensures forall x | x in Candidates(es, sc) ::
              x.score >= 1 && x.score == ScoreOf(sc, x.entry) && x.entry in es
  {
    if es != [] {
      var front := es[..|es| - 1];
      CandidatesSound(front, sc);
      assert forall e | e in front :: e in es;
    }
  }

  /** No entry with a positive score is dropped. */
  lemma {:induction false} CandidatesComplete(es: seq<Entry>, sc: Scorer, e: Entry)
    requires e in es && ScoreOf(sc, e) > 0
    ensures Scored(e, ScoreOf(sc, e)) in Candidates(es, sc)
  {
    var n := |es| - 1;
    if es[n] != e {
      assert e in es[..n];
      CandidatesComplete(es[..n], sc, e);
    }
  }

  lemma CandidatesSnoc(es: seq<Entry>, e: Entry, sc: Scorer)
    ensures Candidates(es + [e], sc) == Candidates(es, sc) + Kept(sc, e)
  {
    assert (es + [e])[..|es|] == es;
  }

  /** Candidates keep scan order: those of a concatenation are those of each
      part, one after the other. */
  lemma {:induction false} CandidatesAppend(a: seq<Entry>, b: seq<Entry>, sc: Scorer)
    ensures Candidates(a + b, sc) == Candidates(a, sc) + Candidates(b, sc)
    decreases |b|
  {
    if b == [] {
      assert a + b == a;
    } else {
      var front, x := b[..|b| - 1], b[|b| - 1];
      CandidatesAppend(a, front, sc);
      SnocSplit(a, b);
      CandidatesSnoc(a + front, x, sc);
      CandidatesSnoc(front, x, sc);
      AppendAssoc(Candidates(a, sc), Candidates(front, sc), Kept(sc, x));
    }
  }

  // ---------------------------------------------------------------------
  // Ranking
  // ---------------------------------------------------------------------

  function ByScore(x: Scored): int
  {
    x.score
  }

  lemma {:induction false} WithKeyPrefix<T>(s: seq<T>, key: T -> int, k: int, n: nat)
    requires n <= |s|
    ensures WithKey(s[..n], key, k) <= WithKey(s, key, k)
    decreases |s| - n
  {
    if n < |s| {
      var m := |s| - 1;
      assert s[..m][..n] == s[..n];
      WithKeyPrefix(s[..m], key, k, n);
    } else {
      assert s[..n] == s;
    }
  }

  /** The items shown are the top `limit` candidates: as many as `slice`
      keeps, taken from the candidates, by non-increasing score, no left-out
      candidate scoring above a shown one, and equal scores in scan order. */
  ghost predicate TopRanked(items: seq<Scored>, candidates: seq<Scored>, limit: int)
  {
    && |items| == SliceEnd(|candidates|, limit)
    && multiset(items) <= multiset(candidates)
    && SortedDesc(items, ByScore)
    && (forall x, y | x in items && y in multiset(candidates) - multiset(items) :: x.score >= y.score)
    && (forall k :: WithKey(items, ByScore, k) <= WithKey(candidates, ByScore, k))
  }

  /** A prefix of a sorted list holds its largest keys: nothing left out has
      a larger key than anything kept. */
  lemma PrefixIsTop(sorted: seq<Scored>, n: nat)
    requires n <= |sorted|
    requires SortedDesc(sorted, ByScore)
    ensures multiset(sorted[..n]) <= multiset(sorted)
    ensures forall x, y | x in sorted[..n] && y in multiset(sorted) - multiset(sorted[..n]) ::
              x.score >= y.score
  {
    var r := sorted[..n];
    var rest := sorted[n..];
    assert sorted == r + rest;
    assert multiset(sorted) == multiset(r) + multiset(rest);
    forall x, y | x in r && y in multiset(sorted) - multiset(r)
      ensures x.score >= y.score
    {
      var i :| 0 <= i < |r| && r[i] == x;
      assert y in rest;
      var j :| 0 <= j < |rest| && rest[j] == y;
      assert ByScore(sorted[i]) >= ByScore(sorted[n + j]);
    }
  }

  /** `scoredApis.sort((a, b) => b.score - a.score).slice(0, limit)`. */
  function Rank(candidates: seq<Scored>, limit: int): (r: seq<Scored>)
    ensures TopRanked(r, candidates, limit)
  {
    var sorted := SortDesc(candidates, ByScore);
    var n := SliceEnd(|sorted|, limit);
    PrefixIsTop(sorted, n);
    forall k
      ensures WithKey(sorted[..n], ByScore, k) <= WithKey(candidates, ByScore, k)
    {
      WithKeyPrefix(sorted, ByScore, k, n);
    }
    sorted[..n]
  }

  /** The reply: an explanatory text when nothing is shown, otherwise the
      ranked list. */
  datatype Outcome = NothingFound | Ranked(items: seq<Scored>)

  function Reply(items: seq<Scored>): (r: Outcome)
    ensures r.NothingFound? <==> items == []
    ensures r.Ranked? ==> r.items == items
  {
    if items == [] then NothingFound else Ranked(items)
  }

  // ---------------------------------------------------------------------
  // The two entry points
  // ---------------------------------------------------------------------

  /** `recommendAPIsForProject(projectType, requirements, limit)`. Every
      shown entry belongs to the catalog and scores between 1 and the
      number of keywords; the list is the top `limit` of the positive
      scores; nothing is shown exactly when `slice` keeps nothing. */
  function Recommend(cat: Catalog, projectType: string, requirements: seq<string>, limit: int): (r: Outcome)
    ensures var kws := ResolveKeywords(projectType, requirements);
            var candidates := Candidates(AllEntries(cat), ByKeywords(kws));
            && (r.NothingFound? <==> SliceEnd(|candidates|, limit) == 0)
            && (r.Ranked? ==> TopRanked(r.items, candidates, limit))
            && (r.Ranked? ==> forall x | x in r.items ::
                  && x.entry in AllEntries(cat)
                  && x.score == Hits(SearchText(x.entry), kws)
                  && 1 <= x.score <= |kws|)
  {
    var kws := ResolveKeywords(projectType, requirements);
    var candidates := Candidates(AllEntries(cat), ByKeywords(kws));
    var items := Rank(candidates, limit);
    assert forall x | x in items :: x in multiset(candidates);
    CandidatesSound(AllEntries(cat), ByKeywords(kws));
    Reply(items)
  }

  /** `findAlternativeAPIs(functionality, limit)`: as `Recommend`, with the
      words of the lowercased `functionality` as keywords, words of at most two
      characters never scoring. */
  function Alternatives(cat: Catalog, functionality: string, limit: int): (r: Outcome)
    ensures var words := Tokens(Lower(functionality));
            var candidates := Candidates(AllEntries(cat), ByWords(words));
            && (r.NothingFound? <==> SliceEnd(|candidates|, limit) == 0)
            && (r.Ranked? ==> TopRanked(r.items, candidates, limit))
            && (r.Ranked? ==> forall x | x in r.items ::
                  && x.entry in AllEntries(cat)
                  && x.score == Hits(SearchText(x.entry), LongTokens(words))
                  && 1 <= x.score <= |LongTokens(words)|)
  {
    var words := Tokens(Lower(functionality));
    var candidates := Candidates(AllEntries(cat), ByWords(words));
    var items := Rank(candidates, limit);
    assert forall x | x in items :: x in multiset(candidates);
    CandidatesSound(AllEntries(cat), ByWords(words));
    forall x | x in items
      ensures x.score == Hits(SearchText(x.entry), LongTokens(words))
    {
      WordScoreIsKeywordScore(functionality, x.entry);
    }
    Reply(items)
  }

  /** The word score of an entry is the keyword score of the long words of
      `functionality`. */
  lemma WordScoreIsKeywordScore(functionality: string, e: Entry)
    ensures var words := Tokens(Lower(functionality));
            ScoreOf(ByWords(words), e) == Hits(SearchText(e), LongTokens(words))
  {
    var words := Tokens(Lower(functionality));
    assert IsLower(Lower(functionality));
    TokensOfLowerAreLower(Lower(functionality));
    TokenHitsAreHits(SearchText(e), words);
  }

  /** Entries that all score zero leave no candidate. */
  lemma {:induction false} CandidatesEmpty(es: seq<Entry>, sc: Scorer)
    requires forall e | e in es :: ScoreOf(sc, e) == 0
    ensures Candidates(es, sc) == []
  {
    if es != [] {
      var front := es[..|es| - 1];
      assert forall e | e in front :: e in es;
      assert es[|es| - 1] in es;
      CandidatesEmpty(front, sc);
    }
  }

  /** With no positively scored entry, the reply is the explanatory text. */
  lemma NoScoreFindsNothing(cat: Catalog, projectType: string, requirements: seq<string>, limit: int)
    requires forall e | e in AllEntries(cat) ::
               Hits(SearchText(e), ResolveKeywords(projectType, requirements)) == 0
    ensures Recommend(cat, projectType, requirements, limit) == NothingFound
  {
    CandidatesEmpty(AllEntries(cat), ByKeywords(ResolveKeywords(projectType, requirements)));
  }

  /** The project type "天气应用" resolves to the first row's keywords. */
  lemma WeatherRowApplies()
    ensures "weather" in ResolveKeywords("天气应用", [])
  {
    assert RowMatches(Table[0].name, "天气应用");
    assert "weather" in Table[0].keywords;
  }

  /** A keyword that occurs in the text scores at least one point. */
  lemma HitsPositive(text: string, kws: seq<string>, w: string)
    requires w in kws && Contains(text, Lower(w))
    ensures Hits(text, kws) >= 1
  {
    var i :| 0 <= i < |kws| && kws[i] == w;
    assert i in HitPositions(text, kws);
    HitsCountsPositions(text, kws);
  }

  /** An entry of the catalog that scores at least one point guarantees a
      ranked reply whenever `limit` is positive. */
  lemma PositiveScoreIsRecommended(cat: Catalog, projectType: string, requirements: seq<string>,
                                   limit: int, e: Entry)
    requires limit >= 1 && e in AllEntries(cat)
    requires Hits(SearchText(e), ResolveKeywords(projectType, requirements)) >= 1
    ensures Recommend(cat, projectType, requirements, limit).Ranked?
  {
    CandidatesComplete(AllEntries(cat), ByKeywords(ResolveKeywords(projectType, requirements)), e);
  }

  /** The searched text starts with the lowercased name. */
  lemma SearchTextStartsWithName(e: Entry)
    ensures Lower(e.api) <= SearchText(e)
  {
    LowerAppend(e.api, " " + e.description + " " + e.category);
  }

  lemma WeatherNameLowered()
    ensures Lower("WeatherAPI")[..7] == "weather"
  {
  }

  lemma WeatherInText(e: Entry)
    requires e.api == "WeatherAPI"
    ensures Contains(SearchText(e), Lower("weather"))
  {
    SearchTextStartsWithName(e);
    WeatherNameLowered();
    assert "weather" <= SearchText(e);
    assert Lower("weather") == "weather";
  }

  lemma WeatherEntryScores(e: Entry)
    requires e.api == "WeatherAPI"
    ensures Hits(SearchText(e), ResolveKeywords("天气应用", [])) >= 1
  {
    WeatherRowApplies();
    WeatherInText(e);
    HitsPositive(SearchText(e), ResolveKeywords("天气应用", []), "weather");
  }

  /** In a one-entry catalog, an entry that scores is recommended first. */
  lemma OnlyEntryIsRecommended(cat: Catalog, e: Entry, projectType: string, requirements: seq<string>, limit: int)
    requires AllEntries(cat) == [e] && limit >= 1
    requires Hits(SearchText(e), ResolveKeywords(projectType, requirements)) >= 1
    ensures var r := Recommend(cat, projectType, requirements, limit);
            r.Ranked? && |r.items| >= 1 && r.items[0].entry == e
  {
    var scorer := ByKeywords(ResolveKeywords(projectType, requirements));
    PositiveScoreIsRecommended(cat, projectType, requirements, limit, e);
    CandidatesSound(AllEntries(cat), scorer);
    var candidates := Candidates(AllEntries(cat), scorer);
    var r := Recommend(cat, projectType, requirements, limit);
    assert r.items[0] in multiset(candidates);
  }

  /** The project type "天气应用" applies to the first table row, whose
      keyword "weather" occurs in any entry named "WeatherAPI": a catalog
      holding one gets a recommendation, and a catalog holding nothing else
      recommends it first. */
  lemma WeatherIsRecommended(cat: Catalog, e: Entry, limit: int)
    requires e in AllEntries(cat) && e.api == "WeatherAPI" && limit >= 1
    ensures Recommend(cat, "天气应用", [], limit).Ranked?
    ensures AllEntries(cat) == [e] ==>
              var r := Recommend(cat, "天气应用", [], limit);
              |r.items| >= 1 && r.items[0].entry == e
  {
    WeatherEntryScores(e);
    PositiveScoreIsRecommended(cat, "天气应用", [], limit, e);
    if AllEntries(cat) == [e] {
      OnlyEntryIsRecommended(cat, e, "天气应用", [], limit);
    }
  }
}

=== FILE: search.dfy ===
/** The query/filter engine (`SearchService` in
    src/services/search-service.ts): category lookup, the four early-stop
    filters, the detail lookup, the category list and the scope of the
    random pick. The catalog snapshot is a parameter. */
module Search {
  import opened Wrappers
  import opened Text
  import opened Sequences
  import opened Catalog

  // ---------------------------------------------------------------------
  // searchAPIsByCategory
  // ---------------------------------------------------------------------

  /** The answer of a category search: an exact key hit, the first key that
      contains the query, or the list of every key. */
  datatype CategoryHit =
    | ExactHit(key: string, count: int, shown: seq<Entry>)
    | FuzzyHit(key: string, count: int, shown: seq<Entry>)
    | Unmatched(available: seq<string>)

  /** The fuzzy test: the lowercased key contains the lowercased query. */
  predicate KeyMatches(key: string, query: string)
  {
    Contains(Lower(key), Lower(query))
  }

  /** `Object.keys(db).find(cat => cat.toLowerCase().includes(q))`, as the
      index of the first matching key in insertion order. */
  function FuzzyIndex(cat: Catalog, query: string): (r: Option<nat>)
    ensures r.Some? ==> r.value < |cat| && KeyMatches(cat[r.value].key, query)
    ensures r.Some? ==> forall j | 0 <= j < r.value :: !KeyMatches(cat[j].key, query)
    ensures r.None? <==> forall j | 0 <= j < |cat| :: !KeyMatches(cat[j].key, query)
  {
    if cat == [] then None
    else if KeyMatches(cat[0].key, query) then Some(0)
    else
      match FuzzyIndex(cat[1..], query)
      case None => None
      case Some(i) => Some(i + 1)
  }

  /** `searchAPIsByCategory(category, limit)`: an exact key is served first;
      otherwise the first key (insertion order) containing the query,
      ignoring ASCII case; otherwise every key is listed. The shown entries
      are `entries.slice(0, limit)` of the chosen category. */
  function SearchByCategory(cat: Catalog, query: string, limit: int): (r: CategoryHit)
    ensures r.ExactHit? <==> query in Keys(cat)
    ensures r.ExactHit? ==>
      && r.key == query
      && Category(query, CategoryData(r.count, Lookup(cat, query).value.entries)) in cat
      && r.shown <= Lookup(cat, query).value.entries
      && |r.shown| == SliceEnd(|Lookup(cat, query).value.entries|, limit)
      && (limit >= 0 ==> |r.shown| == Min(limit, |Lookup(cat, query).value.entries|))
    ensures r.FuzzyHit? <==> query !in Keys(cat) && exists i | 0 <= i < |cat| :: KeyMatches(cat[i].key, query)
    ensures r.FuzzyHit? ==>
      && (exists i | 0 <= i < |cat| ::
            && cat[i].key == r.key
            && KeyMatches(cat[i].key, query)
            && forall j | 0 <= j < i :: !KeyMatches(cat[j].key, query))
      && r.key in Keys(cat)
      && Category(r.key, CategoryData(r.count, Lookup(cat, r.key).value.entries)) in cat
      && r.shown <= Lookup(cat, r.key).value.entries
      && |r.shown| == SliceEnd(|Lookup(cat, r.key).value.entries|, limit)
      && (limit >= 0 ==> |r.shown| == Min(limit, |Lookup(cat, r.key).value.entries|))
    ensures r.Unmatched? ==> r.available == Keys(cat)
  {
    match Lookup(cat, query)
    case Some(d) => ExactHit(query, d.count, Slice(d.entries, limit))
    case None =>
      match FuzzyIndex(cat, query)
      case Some(i) =>
        var key := cat[i].key;
        assert Keys(cat)[i] == key;
        var d := Lookup(cat, key).value;
        FuzzyHit(key, d.count, Slice(d.entries, limit))
      case None => Unmatched(Keys(cat))
  }

  /** With unique keys, an exact hit shows exactly the first
      `min(limit, |entries|)` stored entries of that category, in order. */
  lemma ExactHitShowsPrefix(cat: Catalog, i: nat, limit: int)
    requires UniqueKeys(cat) && i < |cat| && limit >= 0
    ensures var es := cat[i].data.entries;
            SearchByCategory(cat, cat[i].key, limit)
            == ExactHit(cat[i].key, cat[i].data.count, es[..Min(limit, |es|)])
  {
    assert Keys(cat)[i] == cat[i].key;
  }

  /** An empty query that is not itself a key selects the first category,
      because every key contains the empty string. */
  lemma EmptyQuerySelectsFirstCategory(cat: Catalog, limit: int)
    requires cat != [] && "" !in Keys(cat)
    ensures SearchByCategory(cat, "", limit).FuzzyHit?
    ensures SearchByCategory(cat, "", limit).key == cat[0].key
  {
    EmptyIsContained(Lower(cat[0].key));
    assert Lower("") == "";
  }

  // ---------------------------------------------------------------------
  // The early-stop filters: searchAPIsByKeyword, filterAPIsByAuth,
  // filterAPIsByHTTPS, filterAPIsByCORS.
  // ---------------------------------------------------------------------

  /** What a filter selects on. */
  datatype Criterion =
    | KeywordIs(term: string)
    | AuthIs(auth: string)
    | HttpsIs(https: bool)
    | CorsIs(cors: string)

  /** The per-entry test of each filter. The keyword is searched in the name
      and the description only; auth and CORS compare whole strings ignoring
      ASCII case; HTTPS compares booleans. */
  predicate Holds(c: Criterion, e: Entry)
  {
    match c
    case KeywordIs(t) => Contains(Lower(e.api), Lower(t)) || Contains(Lower(e.description), Lower(t))
    case AuthIs(a) => Lower(e.auth) == Lower(a)
    case HttpsIs(b) => e.https == b
    case CorsIs(x) => Lower(e.cors) == Lower(x)
  }

  /** The entries of `es` that satisfy `c`, in order. */
  function Matching(es: seq<Entry>, c: Criterion): (r: seq<Entry>)
    ensures |r| <= |es|
  {
    if es == [] then []
    else
      var last := es[|es| - 1];
      Matching(es[..|es| - 1], c) + (if Holds(c, last) then [last] else [])
  }

  /** `Matching` keeps exactly the entries that satisfy the criterion. */
  lemma {:induction false} MatchingMembers(es: seq<Entry>, c: Criterion)
    ensures forall e :: e in Matching(es, c) <==> e in es && Holds(c, e)
  {
    if es != [] {
      var last := es[|es| - 1];
      assert es == es[..|es| - 1] + [last];
      MatchingMembers(es[..|es| - 1], c);
    }
  }

  lemma {:induction false} MatchingAppend(a: seq<Entry>, b: seq<Entry>, c: Criterion)
    ensures Matching(a + b, c) == Matching(a, c) + Matching(b, c)
    decreases |b|
  {
    if b == [] {
      assert a + b == a;
    } else {
      var front, x := b[..|b| - 1], b[|b| - 1];
      MatchingAppend(a, front, c);
      SnocSplit(a, b);
      MatchingSnoc(a + front, x, c);
      MatchingSnoc(front, x, c);
      AppendAssoc(Matching(a, c), Matching(front, c), if Holds(c, x) then [x] else []);
    }
  }

  lemma MatchingSnoc(es: seq<Entry>, x: Entry, c: Criterion)
    ensures Matching(es + [x], c) == Matching(es, c) + (if Holds(c, x) then [x] else [])
  {
    assert (es + [x])[..|es|] == es;
  }

  /** Every match in the catalog, in scan order. */
  function AllMatching(cat: Catalog, c: Criterion): seq<Entry>
  {
    Matching(AllEntries(cat), c)
  }

  /** What the early-stop scan returns, stated without the loop. With
      `limit >= 1` it is the first `min(limit, #matches)` matches in scan
      order. With `limit <= 0` the check after the first category already
      stops the scan, so it is the first match of the first category, if
      that category has one, and nothing otherwise. */
  function ScanResult(cat: Catalog, c: Criterion, limit: int): (r: seq<Entry>)
    ensures r <= AllMatching(cat, c)
    ensures limit >= 1 ==> |r| == Min(limit, |AllMatching(cat, c)|)
    ensures limit <= 0 ==> |r| <= 1
    ensures limit <= 0 ==> (|r| == 1 <==> cat != [] && Matching(cat[0].data.entries, c) != [])
  {
    var all := AllMatching(cat, c);
    if limit >= 1 then all[..Min(limit, |all|)]
    else if cat == [] then []
    else
      var first := Matching(cat[0].data.entries, c);
      MatchingAppend(cat[0].data.entries, AllEntries(cat[1..]), c);
      first[..Min(1, |first|)]
  }

  lemma AllEntriesSnoc(cat: Catalog, i: nat)
    requires i < |cat|
    ensures AllEntries(cat[..i + 1]) == AllEntries(cat[..i]) + cat[i].data.entries
  {
    assert cat[..i + 1] == cat[..i] + [cat[i]];
    AllEntriesAppend(cat[..i], [cat[i]]);
    assert AllEntries([cat[i]]) == cat[i].data.entries + AllEntries([]);
  }

  /** Matches gathered up to category `i`, entry `j` are a prefix of all
      matches, and of the matches of category `i` alone. */
  lemma ScanPrefix(cat: Catalog, c: Criterion, i: nat, j: nat)
    requires i < |cat| && j <= |cat[i].data.entries|
    ensures Matching(cat[i].data.entries[..j], c) <= Matching(cat[i].data.entries, c)
    ensures Matching(AllEntries(cat[..i]), c) + Matching(cat[i].data.entries[..j], c) <= AllMatching(cat, c)
  {
    var es := cat[i].data.entries;
    assert es == es[..j] + es[j..];
    MatchingAppend(es[..j], es[j..], c);
    assert cat == cat[..i + 1] + cat[i + 1..];
    AllEntriesAppend(cat[..i + 1], cat[i + 1..]);
    AllEntriesSnoc(cat, i);
    MatchingAppend(AllEntries(cat[..i]), es, c);
    MatchingAppend(AllEntries(cat[..i + 1]), AllEntries(cat[i + 1..]), c);
  }

  /** The scan stops inside category `i` right after pushing entry `j`. */
  lemma ScanStopsInside(cat: Catalog, c: Criterion, limit: int, i: nat, j: nat, results: seq<Entry>)
    requires i < |cat| && j < |cat[i].data.entries|
    requires results == Gathered(cat, c, i) + Matching(cat[i].data.entries[..j + 1], c)
    requires limit >= 1 ==> |results| == limit
    requires limit <= 0 ==> i == 0 && |results| == 1
    ensures results == ScanResult(cat, c, limit)
  {
    ScanPrefix(cat, c, i, j + 1);
    if limit <= 0 {
      assert cat[..0] == [];
      assert Gathered(cat, c, 0) == [];
      StopsInFirst(cat, c, limit, results);
    } else {
      PrefixOfLength(results, AllMatching(cat, c));
    }
  }

  /** With `limit <= 0`, one match of the first category is the result. */
  lemma StopsInFirst(cat: Catalog, c: Criterion, limit: int, results: seq<Entry>)
    requires cat != [] && limit <= 0
    requires results <= Matching(cat[0].data.entries, c) && |results| == 1
    ensures results == ScanResult(cat, c, limit)
  {
    PrefixOfLength(results, Matching(cat[0].data.entries, c));
  }

  /** With `limit <= 0` the scan stops after the first category, which
      held no match. */
  lemma ScanStopsAfterFirst(cat: Catalog, c: Criterion, limit: int)
    requires cat != [] && limit <= 0
    requires Matching(cat[0].data.entries, c) == []
    ensures ScanResult(cat, c, limit) == []
  {
    assert Matching(cat[0].data.entries, c)[..0] == [];
  }

  /** The scan ran through every category without reaching the limit. */
  lemma ScanRunsOut(cat: Catalog, c: Criterion, limit: int)
    requires limit >= 1 ==> |AllMatching(cat, c)| < limit
    requires limit <= 0 ==> cat == []
    ensures AllMatching(cat, c) == ScanResult(cat, c, limit)
  {
  }

  /** Matches of the first `i` categories. */
  function Gathered(cat: Catalog, c: Criterion, i: nat): seq<Entry>
    requires i <= |cat|
  {
    Matching(AllEntries(cat[..i]), c)
  }

  lemma GatheredStep(cat: Catalog, c: Criterion, i: nat)
    requires i < |cat|
    ensures Gathered(cat, c, i + 1) == Gathered(cat, c, i) + Matching(cat[i].data.entries, c)
  {
    AllEntriesSnoc(cat, i);
    MatchingAppend(AllEntries(cat[..i]), cat[i].data.entries, c);
  }

  lemma MatchingStep(es: seq<Entry>, j: nat, c: Criterion)
    requires j < |es|
    ensures Matching(es[..j + 1], c) == Matching(es[..j], c) + (if Holds(c, es[j]) then [es[j]] else [])
  {
    assert es[..j + 1][..j] == es[..j];
  }

  /** The limit check after category `i` was scanned to its end. */
  lemma ScanCategoryEnd(cat: Catalog, c: Criterion, limit: int, i: nat, results: seq<Entry>)
    requires i < |cat| && results == Gathered(cat, c, i) + Matching(cat[i].data.entries, c)
    requires limit >= 1 ==> |results| < limit
    requires limit <= 0 ==> i == 0 && results == []
    ensures |results| >= limit ==> results == ScanResult(cat, c, limit)
    ensures |results| < limit ==> limit >= 1 && results == Gathered(cat, c, i + 1)
  {
    if |results| >= limit {
      assert cat[..0] == [];
      ScanStopsAfterFirst(cat, c, limit);
    } else {
      GatheredStep(cat, c, i);
    }
  }

  /** The inner loop of the scan over category `i`, followed by the limit
      check after the category. `stopped` tells whether that check broke
      the outer loop. */
  method ScanCategory(cat: Catalog, c: Criterion, limit: int, i: nat, acc: seq<Entry>)
    returns (results: seq<Entry>, stopped: bool)
    requires i < |cat| && acc == Gathered(cat, c, i)
    requires limit >= 1 ==> |acc| < limit
    requires limit <= 0 ==> i == 0 && acc == []
    ensures stopped ==> results == ScanResult(cat, c, limit)
    ensures !stopped ==> limit >= 1 && results == Gathered(cat, c, i + 1) && |results| < limit
  {
    results := acc;
    var es := cat[i].data.entries;
    var j := 0;
    while j < |es|
      invariant 0 <= j <= |es|
      invariant results == Gathered(cat, c, i) + Matching(es[..j], c)
      invariant limit >= 1 ==> |results| < limit
      invariant limit <= 0 ==> results == []
    {
      MatchingStep(es, j, c);
      if Holds(c, es[j]) {
        AppendAssoc(Gathered(cat, c, i), Matching(es[..j], c), [es[j]]);
        results := results + [es[j]];
        if |results| >= limit {
          ScanStopsInside(cat, c, limit, i, j, results);
          return results, true;
        }
      }
      j := j + 1;
    }
    assert es[..|es|] == es;
    stopped := |results| >= limit;
    ScanCategoryEnd(cat, c, limit, i, results);
  }

  /** The scan shared by the four filters: categories in insertion order,
      entries in list order; a match is pushed and then the limit is
      checked, once inside the inner loop and once after each category. */
  method Scan(cat: Catalog, c: Criterion, limit: int) returns (results: seq<Entry>)
    ensures results == ScanResult(cat, c, limit)
  {
    results := [];
    var i := 0;
    while i < |cat|
      invariant 0 <= i <= |cat|
      invariant results == Gathered(cat, c, i)
      invariant limit >= 1 ==> |results| < limit
      invariant limit <= 0 ==> i == 0
    {
      var stopped;
      results, stopped := ScanCategory(cat, c, limit, i, results);
      if stopped {
        return;
      }
      i := i + 1;
    }
    assert cat[..i] == cat;
    ScanRunsOut(cat, c, limit);
  }

  /** A filter's answer: the keyword and auth filters report "not found" on
      zero results; the HTTPS and CORS filters always answer with a list. */
  datatype Listing = NotFound | Found(entries: seq<Entry>)

  /** `searchAPIsByKeyword(keyword, limit)`. */
  method SearchByKeyword(cat: Catalog, keyword: string, limit: int) returns (r: Listing)
    ensures r.NotFound? <==> ScanResult(cat, KeywordIs(keyword), limit) == []
    ensures r.Found? ==> r.entries == ScanResult(cat, KeywordIs(keyword), limit)
  {
    var results := Scan(cat, KeywordIs(keyword), limit);
    r := if results == [] then NotFound else Found(results);
  }

  /** `filterAPIsByAuth(authType, limit)`. */
  method FilterByAuth(cat: Catalog, authType: string, limit: int) returns (r: Listing)
    ensures r.NotFound? <==> ScanResult(cat, AuthIs(authType), limit) == []
    ensures r.Found? ==> r.entries == ScanResult(cat, AuthIs(authType), limit)
  {
    var results := Scan(cat, AuthIs(authType), limit);
    r := if results == [] then NotFound else Found(results);
  }

  /** `filterAPIsByHTTPS(httpsOnly, limit)`: no "not found" branch. */
  method FilterByHttps(cat: Catalog, httpsOnly: bool, limit: int) returns (r: Listing)
    ensures r == Found(ScanResult(cat, HttpsIs(httpsOnly), limit))
  {
    var results := Scan(cat, HttpsIs(httpsOnly), limit);
    r := Found(results);
  }

  /** `filterAPIsByCORS(corsSupport, limit)`: no "not found" branch. */
  method FilterByCors(cat: Catalog, corsSupport: string, limit: int) returns (r: Listing)
    ensures r == Found(ScanResult(cat, CorsIs(corsSupport), limit))
  {
    var results := Scan(cat, CorsIs(corsSupport), limit);
    r := Found(results);
  }

  /** The keyword test never looks at the category or the link. */
  lemma KeywordIgnoresCategoryAndLink(e: Entry, term: string, category: string, link: string)
    ensures Holds(KeywordIs(term), e) == Holds(KeywordIs(term), e.(category := category, link := link))
  {
  }

  /** Every returned entry satisfies the filter and comes from the catalog. */
  lemma ScanResultSound(cat: Catalog, c: Criterion, limit: int)
    ensures forall e | e in ScanResult(cat, c, limit) :: Holds(c, e) && e in AllEntries(cat)
  {
    MatchingMembers(AllEntries(cat), c);
    var r := ScanResult(cat, c, limit);
    forall e | e in r
      ensures Holds(c, e) && e in AllEntries(cat)
    {
      var k :| 0 <= k < |r| && r[k] == e;
      assert AllMatching(cat, c)[k] == e;
    }
  }

  /** An entry whose name contains the keyword is found whenever the limit
      leaves room for every match. */
  lemma KeywordFindsKnownEntry(cat: Catalog, e: Entry, keyword: string, limit: int)
    requires e in AllEntries(cat)
    requires Contains(Lower(e.api), Lower(keyword))
    requires limit >= |AllMatching(cat, KeywordIs(keyword))|
    ensures e in ScanResult(cat, KeywordIs(keyword), limit)
  {
    var all := AllMatching(cat, KeywordIs(keyword));
    MatchingMembers(AllEntries(cat), KeywordIs(keyword));
    assert e in all;
    assert |all| >= 1;
    assert ScanResult(cat, KeywordIs(keyword), limit) == all;
  }

  /** A filter with no match anywhere in the catalog returns nothing, which
      the keyword and auth filters report as "not found". */
  lemma NoMatchYieldsNothing(cat: Catalog, c: Criterion, limit: int)
    requires forall e | e in AllEntries(cat) :: !Holds(c, e)
    ensures ScanResult(cat, c, limit) == []
  {
    MatchingNone(AllEntries(cat), c);
  }

  lemma {:induction false} MatchingNone(es: seq<Entry>, c: Criterion)
    requires forall e | e in es :: !Holds(c, e)
    ensures Matching(es, c) == []
  {
    if es != [] {
      assert es[|es| - 1] in es;
      MatchingNone(es[..|es| - 1], c);
    }
  }

  // ---------------------------------------------------------------------
  // getAPIDetails
  // ---------------------------------------------------------------------

  /** The detail lookup's name test: whole names equal ignoring ASCII case. */
  predicate NamedAs(e: Entry, name: string)
  {
    Lower(e.api) == Lower(name)
  }

  /** `k` is the first position of `es` holding an entry named `name`. */
  ghost predicate FirstNamedAt(es: seq<Entry>, name: string, k: int)
  {
    0 <= k < |es| && NamedAs(es[k], name) && forall m | 0 <= m < k :: !NamedAs(es[m], name)
  }

  lemma FirstNamedShift(pre: seq<Entry>, rest: seq<Entry>, name: string, e: Entry)
    requires forall k | 0 <= k < |pre| :: !NamedAs(pre[k], name)
    requires exists k :: FirstNamedAt(rest, name, k) && rest[k] == e
    ensures exists k :: FirstNamedAt(pre + rest, name, k) && (pre + rest)[k] == e
  {
    var k :| FirstNamedAt(rest, name, k) && rest[k] == e;
    var all := pre + rest;
    forall m | 0 <= m < |pre| + k
      ensures !NamedAs(all[m], name)
    {
      if m >= |pre| {
        assert all[m] == rest[m - |pre|];
      }
    }
    assert FirstNamedAt(all, name, |pre| + k);
  }

  lemma FirstNamedInPrefix(pre: seq<Entry>, rest: seq<Entry>, name: string, e: Entry)
    requires exists k :: FirstNamedAt(pre, name, k) && pre[k] == e
    ensures exists k :: FirstNamedAt(pre + rest, name, k) && (pre + rest)[k] == e
  {
    var k :| FirstNamedAt(pre, name, k) && pre[k] == e;
    assert FirstNamedAt(pre + rest, name, k);
  }

  /** `entries.find(entry => entry.API.toLowerCase() === name.toLowerCase())`. */
  function FindNamed(es: seq<Entry>, name: string): (r: Option<Entry>)
    ensures r.None? <==> forall k | 0 <= k < |es| :: !NamedAs(es[k], name)
    ensures r.Some? ==> exists k :: FirstNamedAt(es, name, k) && es[k] == r.value
  {
    if es == [] then None
    else if NamedAs(es[0], name) then
      assert FirstNamedAt(es, name, 0);
      Some(es[0])
    else
      var r := FindNamed(es[1..], name);
      assert es == [es[0]] + es[1..];
      if r.Some? then FirstNamedShift([es[0]], es[1..], name, r.value); r
      else r
  }

  /** `getAPIDetails(name)`: the first entry in scan order whose name equals
      `name` ignoring ASCII case; `None` is the "not found" text. */
  function Details(cat: Catalog, name: string): (r: Option<Entry>)
    ensures r.None? <==> forall k | 0 <= k < |AllEntries(cat)| :: !NamedAs(AllEntries(cat)[k], name)
    ensures r.Some? ==> exists k :: FirstNamedAt(AllEntries(cat), name, k) && AllEntries(cat)[k] == r.value
  {
    if cat == [] then None
    else
      var es := cat[0].data.entries;
      assert AllEntries(cat) == es + AllEntries(cat[1..]);
      match FindNamed(es, name)
      case Some(e) =>
        FirstNamedInPrefix(es, AllEntries(cat[1..]), name, e);
        Some(e)
      case None =>
        var r := Details(cat[1..], name);
        if r.Some? then FirstNamedShift(es, AllEntries(cat[1..]), name, r.value); r
        else
          assert forall k | 0 <= k < |AllEntries(cat)| :: !NamedAs(AllEntries(cat)[k], name) by {
            forall k | 0 <= k < |AllEntries(cat)|
              ensures !NamedAs(AllEntries(cat)[k], name)
            {
              if k >= |es| {
                assert AllEntries(cat)[k] == AllEntries(cat[1..])[k - |es|];
              }
            }
          }
          r
  }

  // ---------------------------------------------------------------------
  // getCategoryList
  // ---------------------------------------------------------------------

  datatype CategoryRow = CategoryRow(key: string, count: int)

  /** The category list: "no categories" for an empty catalog, else the rows. */
  datatype CategoryListing = NoCategories | Categories(rows: seq<CategoryRow>)

  function RowKeys(rows: seq<CategoryRow>): seq<string>
  {
    seq(|rows|, i requires 0 <= i < |rows| => rows[i].key)
  }

  /** `apiDatabase[category]?.count || 0` for an integer count. */
  function CountOrZero(cat: Catalog, key: string): int
  {
    match Lookup(cat, key)
    case Some(d) => d.count
    case None => 0
  }

  lemma CountIsStored(cat: Catalog, key: string)
    requires key in Keys(cat)
    ensures exists j | 0 <= j < |cat| :: cat[j].key == key && cat[j].data.count == CountOrZero(cat, key)
  {
    var d := Lookup(cat, key).value;
    var j :| 0 <= j < |cat| && cat[j] == Category(key, d);
  }

  /** Each key paired with the count stored under it. */
  function Rows(cat: Catalog, keys: seq<string>): (rows: seq<CategoryRow>)
    requires forall i | 0 <= i < |keys| :: keys[i] in Keys(cat)
    ensures RowKeys(rows) == keys
    ensures forall i | 0 <= i < |rows| ::
      exists j | 0 <= j < |cat| :: cat[j].key == rows[i].key && cat[j].data.count == rows[i].count
  {
    var rows := seq(|keys|, i requires 0 <= i < |keys| => CategoryRow(keys[i], CountOrZero(cat, keys[i])));
    assert forall i | 0 <= i < |rows| ::
      exists j | 0 <= j < |cat| :: cat[j].key == rows[i].key && cat[j].data.count == rows[i].count by {
      forall i | 0 <= i < |rows|
        ensures exists j | 0 <= j < |cat| :: cat[j].key == rows[i].key && cat[j].data.count == rows[i].count
      {
        CountIsStored(cat, keys[i]);
      }
    }
    rows
  }

  /** `getCategoryList()`: the keys in `sort()` order, each paired with its
      stored count. */
  function CategoryList(cat: Catalog): (r: CategoryListing)
    ensures r.NoCategories? <==> cat == []
    ensures r.Categories? ==> SortedStrings(RowKeys(r.rows))
    ensures r.Categories? ==> multiset(RowKeys(r.rows)) == multiset(Keys(cat))
    ensures r.Categories? ==>
      forall i | 0 <= i < |r.rows| ::
        exists j | 0 <= j < |cat| :: cat[j].key == r.rows[i].key && cat[j].data.count == r.rows[i].count
  {
    var keys := SortStrings(Keys(cat));
    if |keys| == 0 then
      assert |multiset(Keys(cat))| == 0;
      NoCategories
    else
      assert forall i | 0 <= i < |keys| :: keys[i] in Keys(cat) by {
        forall i | 0 <= i < |keys|
          ensures keys[i] in Keys(cat)
        {
          assert keys[i] in multiset(keys);
        }
      }
      Categories(Rows(cat, keys))
  }

  // ---------------------------------------------------------------------
  // getRandomAPI (the scope; the random draw is a parameter)
  // ---------------------------------------------------------------------

  /** Where the random pick draws from. */
  datatype Scope = MissingCategory | Pool(apis: seq<Entry>)

  /** A non-empty category name must be an exact key and selects that list;
      the empty name (absent or falsy in the source) selects every entry. */
  function RandomScope(cat: Catalog, category: string): (r: Scope)
    ensures category == "" ==> r == Pool(AllEntries(cat))
    ensures category != "" ==> (r.MissingCategory? <==> category !in Keys(cat))
    ensures category != "" && r.Pool? ==>
      exists j | 0 <= j < |cat| :: cat[j].key == category && cat[j].data.entries == r.apis
  {
    if category == "" then Pool(AllEntries(cat))
    else
      match Lookup(cat, category)
      case None => MissingCategory
      case Some(d) => Pool(d.entries)
  }

  datatype RandomPick = NoCategory | NoApis | Picked(api: Entry)

  lemma LessByFactor(a: int, b: int, f: int)
    requires f > 0 && a * f < b * f
    ensures a < b
  {
  }

  lemma MulDivCancel(k: nat, n: nat)
    requires n > 0
    ensures k * n / n == k
  {
    var q := k * n / n;
    var r := k * n % n;
    assert k * n == q * n + r;
    assert (k - q) * n == r;
    assert (q - k) * n == -r;
    LessByFactor(k - q, 1, n);
    LessByFactor(q - k, 1, n);
  }

  /** `Math.floor(u * n)` for `u = draw / outOf` in `[0, 1)` lies in `[0, n)`. */
  lemma ScaledIndexInRange(draw: nat, outOf: nat, n: nat)
    requires draw < outOf && n > 0
    ensures draw * n / outOf < n
  {
    var q := draw * n / outOf;
    assert q * outOf <= draw * n;
    assert draw * n < n * outOf;
    LessByFactor(q, n, outOf);
  }

  /** `getRandomAPI(category)` with `Math.random()` given as the fraction
      `draw / outOf`: the picked entry is always drawn from the scope. */
  function RandomApi(cat: Catalog, category: string, draw: nat, outOf: nat): (r: RandomPick)
    requires draw < outOf
    ensures r.NoCategory? <==> RandomScope(cat, category).MissingCategory?
    ensures r.NoApis? <==> RandomScope(cat, category) == Pool([])
    ensures r.Picked? ==> RandomScope(cat, category).Pool? && r.api in RandomScope(cat, category).apis
  {
    match RandomScope(cat, category)
    case MissingCategory => NoCategory
    case Pool(apis) =>
      if |apis| == 0 then NoApis
      else
        ScaledIndexInRange(draw, outOf, |apis|);
        Picked(apis[draw * |apis| / outOf])
  }

  /** Every entry of a non-empty scope can be drawn. */
  lemma EveryScopeEntryReachable(cat: Catalog, category: string, k: nat)
    requires RandomScope(cat, category).Pool?
    requires k < |RandomScope(cat, category).apis|
    ensures RandomApi(cat, category, k, |RandomScope(cat, category).apis|)
            == Picked(RandomScope(cat, category).apis[k])
  {
    var n := |RandomScope(cat, category).apis|;
    MulDivCancel(k, n);
  }
}

=== FILE: sequences.dfy ===
/** The JavaScript array operations the services rely on: `slice(0, limit)`,
    the stable `sort` with a numeric comparator, and the default `sort()` of
    string arrays. */
module Sequences {
  import opened Text

  /** The smaller of two integers. */
  function Min(a: int, b: int): int
  {
    if a <= b then a else b
  }

  /** The larger of two integers. */
  function Max(a: int, b: int): int
  {
    if a <= b then b else a
  }

  /** End index of `s.slice(0, limit)` for an integer `limit` and `|s| == len`:
      a non-negative limit is clamped to the length, a negative one counts
      back from the end. */
  function SliceEnd(len: nat, limit: int): (n: nat)
    ensures n <= len
  {
    if limit >= 0 then Min(limit, len) else Max(len + limit, 0)
  }

  /** A prefix is determined by its length. */
  lemma PrefixOfLength<T>(a: seq<T>, b: seq<T>)
    requires a <= b
    ensures a == b[..|a|]
  {
  }

  /** `s.slice(0, limit)`. */
  function Slice<T>(s: seq<T>, limit: int): (r: seq<T>)
    ensures r <= s
    ensures limit >= 0 ==> |r| == Min(limit, |s|)
    ensures limit < 0 ==> |r| == Max(|s| + limit, 0)
  {
    s[..SliceEnd(|s|, limit)]
  }

  lemma AppendAssoc<T>(p: seq<T>, q: seq<T>, r: seq<T>)
    ensures (p + q) + r == p + (q + r)
  {
  }

  /** `b` split before its last element, alone and after `a`. */
  lemma SnocSplit<T>(a: seq<T>, b: seq<T>)
    requires b != []
    ensures b == b[..|b| - 1] + [b[|b| - 1]]
    ensures a + b == (a + b[..|b| - 1]) + [b[|b| - 1]]
  {
  }

  // ---------------------------------------------------------------------
  // Stable sort by non-increasing key: `s.sort((a, b) => key(b) - key(a))`.
  // `Array.prototype.sort` is stable (ECMAScript 2019, section 22.1.3.27),
  // so elements with equal keys keep their relative order.
  // ---------------------------------------------------------------------

  ghost predicate SortedDesc<T>(s: seq<T>, key: T -> int)
  {
    forall i, j | 0 <= i < j < |s| :: key(s[i]) >= key(s[j])
  }

  /** The elements of `s` whose key is `k`, in their order in `s`. */
  function WithKey<T>(s: seq<T>, key: T -> int, k: int): seq<T>
  {
    if s == [] then []
    else WithKey(s[..|s| - 1], key, k) + (if key(s[|s| - 1]) == k then [s[|s| - 1]] else [])
  }

  /** Places `x` after every element of `acc` whose key is at least `key(x)`. */
  function InsertDesc<T>(acc: seq<T>, x: T, key: T -> int): seq<T>
    decreases |acc|
  {
    if acc == [] || key(acc[|acc| - 1]) >= key(x) then acc + [x]
    else InsertDesc(acc[..|acc| - 1], x, key) + [acc[|acc| - 1]]
  }

  lemma {:induction false} InsertDescPermutes<T>(acc: seq<T>, x: T, key: T -> int)
    ensures multiset(InsertDesc(acc, x, key)) == multiset(acc) + multiset{x}
    decreases |acc|
  {
    if !(acc == [] || key(acc[|acc| - 1]) >= key(x)) {
      var front := acc[..|acc| - 1];
      assert acc == front + [acc[|acc| - 1]];
      InsertDescPermutes(front, x, key);
    }
  }

  lemma {:induction false} InsertDescSorted<T>(acc: seq<T>, x: T, key: T -> int)
    requires SortedDesc(acc, key)
    ensures SortedDesc(InsertDesc(acc, x, key), key)
    decreases |acc|
  {
    var r := InsertDesc(acc, x, key);
    if acc == [] || key(acc[|acc| - 1]) >= key(x) {
      assert r == acc + [x];
      forall i, j | 0 <= i < j < |r|
        ensures key(r[i]) >= key(r[j])
      {
        if j < |acc| {
          assert key(acc[i]) >= key(acc[j]);
        } else if i < |acc| - 1 {
          assert key(acc[i]) >= key(acc[|acc| - 1]);
        }
      }
    } else {
      var y := acc[|acc| - 1];
      var front := acc[..|acc| - 1];
      assert SortedDesc(front, key) by {
        forall i, j | 0 <= i < j < |front|
          ensures key(front[i]) >= key(front[j])
        {
          assert key(acc[i]) >= key(acc[j]);
        }
      }
      InsertDescSorted(front, x, key);
      InsertDescPermutes(front, x, key);
      var r' := InsertDesc(front, x, key);
      assert r == r' + [y];
      forall i | 0 <= i < |r'|
        ensures key(r'[i]) >= key(y)
      {
        assert r'[i] in multiset(r');
        if r'[i] != x {
          assert r'[i] in multiset(front);
          var m :| 0 <= m < |front| && front[m] == r'[i];
          assert key(acc[m]) >= key(acc[|acc| - 1]);
        }
      }
      forall i, j | 0 <= i < j < |r|
        ensures key(r[i]) >= key(r[j])
      {
        if j < |r'| {
          assert key(r'[i]) >= key(r'[j]);
        } else {
          assert key(r'[i]) >= key(y);
        }
      }
    }
  }

  lemma {:induction false} InsertDescStable<T>(acc: seq<T>, x: T, key: T -> int, k: int)
    ensures WithKey(InsertDesc(acc, x, key), key, k)
            == WithKey(acc, key, k) + (if key(x) == k then [x] else [])
    decreases |acc|
  {
    var r := InsertDesc(acc, x, key);
    if acc == [] || key(acc[|acc| - 1]) >= key(x) {
      assert r[..|r| - 1] == acc;
    } else {
      var y := acc[|acc| - 1];
      var front := acc[..|acc| - 1];
      InsertDescStable(front, x, key, k);
      var r' := InsertDesc(front, x, key);
      assert r == r' + [y];
      assert r[..|r| - 1] == r';
      assert WithKey(acc, key, k) == WithKey(front, key, k) + (if key(y) == k then [y] else []);
    }
  }

  /** Stable sort by non-increasing key, as insertion sort. The result is a
      permutation of `s`, ordered by non-increasing key, and for every key
      value the elements carrying it appear in the same order as in `s`. */
  function SortDesc<T>(s: seq<T>, key: T -> int): (r: seq<T>)
    ensures multiset(r) == multiset(s)
    ensures SortedDesc(r, key)
    ensures forall k :: WithKey(r, key, k) == WithKey(s, key, k)
  {
    if s == [] then []
    else
      var front := SortDesc(s[..|s| - 1], key);
      var x := s[|s| - 1];
      InsertDescPermutes(front, x, key);
      InsertDescSorted(front, x, key);
      assert forall k :: WithKey(InsertDesc(front, x, key), key, k)
                         == WithKey(front, key, k) + (if key(x) == k then [x] else []) by {
        forall k
          ensures WithKey(InsertDesc(front, x, key), key, k)
                  == WithKey(front, key, k) + (if key(x) == k then [x] else [])
        {
          InsertDescStable(front, x, key, k);
        }
      }
      assert s == s[..|s| - 1] + [x];
      InsertDesc(front, x, key)
  }

  // ---------------------------------------------------------------------
  // `keys.sort()` on strings.
  // ---------------------------------------------------------------------

  ghost predicate SortedStrings(s: seq<string>)
  {
    forall i, j | 0 <= i < j < |s| :: StrLe(s[i], s[j])
  }

  function InsertString(x: string, s: seq<string>): seq<string>
  {
    if s == [] || StrLe(x, s[0]) then [x] + s
    else [s[0]] + InsertString(x, s[1..])
  }

  lemma {:induction false} InsertStringPermutes(x: string, s: seq<string>)
    ensures multiset(InsertString(x, s)) == multiset(s) + multiset{x}
    decreases |s|
  {
    if !(s == [] || StrLe(x, s[0])) {
      assert s == [s[0]] + s[1..];
      InsertStringPermutes(x, s[1..]);
    }
  }

  /** A string no greater than every element of a sorted list can go in
      front of it. */
  lemma ConsSorted(y: string, t: seq<string>)
    requires SortedStrings(t)
    requires forall j | 0 <= j < |t| :: StrLe(y, t[j])
    ensures SortedStrings([y] + t)
  {
    var r := [y] + t;
    forall i, j | 0 <= i < j < |r|
      ensures StrLe(r[i], r[j])
    {
      assert r[j] == t[j - 1];
      if i > 0 {
        assert r[i] == t[i - 1];
      }
    }
  }

  lemma SortedTail(s: seq<string>)
    requires s != [] && SortedStrings(s)
    ensures SortedStrings(s[1..])
    ensures forall j | 0 <= j < |s| - 1 :: StrLe(s[0], s[1..][j])
  {
    var tail := s[1..];
    forall i, j | 0 <= i < j < |tail|
      ensures StrLe(tail[i], tail[j])
    {
      assert tail[i] == s[i + 1] && tail[j] == s[j + 1];
    }
    forall j | 0 <= j < |tail|
      ensures StrLe(s[0], tail[j])
    {
      assert tail[j] == s[j + 1];
    }
  }

  /** A lower bound of every element of `t` and of `x` bounds every element
      of a permutation of `t` plus `x`. */
  lemma BoundOfPermutation(y: string, t: seq<string>, x: string, r: seq<string>)
    requires forall m | 0 <= m < |t| :: StrLe(y, t[m])
    requires StrLe(y, x)
    requires multiset(r) == multiset(t) + multiset{x}
    ensures forall j | 0 <= j < |r| :: StrLe(y, r[j])
  {
    forall j | 0 <= j < |r|
      ensures StrLe(y, r[j])
    {
      assert r[j] in multiset(r);
      if r[j] != x {
        assert r[j] in multiset(t);
        var m :| 0 <= m < |t| && t[m] == r[j];
      }
    }
  }

  lemma {:induction false} InsertStringSorted(x: string, s: seq<string>)
    requires SortedStrings(s)
    ensures SortedStrings(InsertString(x, s))
    decreases |s|
  {
    if s == [] || StrLe(x, s[0]) {
      if s != [] {
        SortedTail(s);
        forall j | 0 <= j < |s|
          ensures StrLe(x, s[j])
        {
          if j > 0 {
            assert s[1..][j - 1] == s[j];
            StrLeTransitive(x, s[0], s[j]);
          }
        }
      }
      ConsSorted(x, s);
    } else {
      StrLeTotal(x, s[0]);
      var tail := s[1..];
      SortedTail(s);
      InsertStringSorted(x, tail);
      InsertStringPermutes(x, tail);
      BoundOfPermutation(s[0], tail, x, InsertString(x, tail));
      ConsSorted(s[0], InsertString(x, tail));
    }
  }

  /** `s.sort()` for strings: a permutation of `s` in `StrLe` order. */
  function SortStrings(s: seq<string>): (r: seq<string>)
    ensures multiset(r) == multiset(s)
    ensures SortedStrings(r)
  {
    if s == [] then []
    else
      var rest := SortStrings(s[1..]);
      InsertStringPermutes(s[0], rest);
      InsertStringSorted(s[0], rest);
      assert s == [s[0]] + s[1..];
      InsertString(s[0], rest)
  }
}

=== FILE: statistics.dfy ===
/** The integer aggregations of `getAPIStatistics` and
    `analyzeAuthRequirements` in src/services/search-service.ts. Tallies are
    JavaScript objects used as ordered maps: a new key goes to the end, and
    `Object.entries(...).sort((a, b) => b.count - a.count)` orders them by
    non-increasing count, ties in first-seen order. */
module Statistics {
  import opened Wrappers
  import opened Catalog
  import opened Sequences
  import Search

  // ---------------------------------------------------------------------
  // Ordered tallies: `{ [key: string]: number }`
  // ---------------------------------------------------------------------

  datatype Tally = Tally(key: string, count: nat)

  function TallyKeys(t: seq<Tally>): seq<string>
  {
    seq(|t|, i requires 0 <= i < |t| => t[i].key)
  }

  ghost predicate DistinctKeys(t: seq<Tally>)
  {
    forall i, j | 0 <= i < j < |t| :: t[i].key != t[j].key
  }

  lemma DistinctKeysTail(t: seq<Tally>)
    requires t != [] && DistinctKeys(t)
    ensures DistinctKeys(t[1..])
  {
    forall i, j | 0 <= i < j < |t| - 1
      ensures t[1..][i].key != t[1..][j].key
    {
      assert t[1..][i] == t[i + 1] && t[1..][j] == t[j + 1];
    }
  }

  /** The sum of the counts of a tally. */
  function Total(t: seq<Tally>): int
  {
    if t == [] then 0 else t[0].count + Total(t[1..])
  }

  /** `if (!tally[k]) tally[k] = 0; tally[k]++`: the count of `k` grows by
      one, a new key being appended with count 1; nothing else changes. */
  function Bump(t: seq<Tally>, k: string): (r: seq<Tally>)
    requires DistinctKeys(t)
    ensures k in TallyKeys(t) ==> |r| == |t|
    ensures k !in TallyKeys(t) ==> r == t + [Tally(k, 1)]
    ensures forall i | 0 <= i < |t| :: r[i] == (if t[i].key == k then Tally(k, t[i].count + 1) else t[i])
  {
    if t == [] then [Tally(k, 1)]
    else if t[0].key == k then
      assert TallyKeys(t)[0] == k;
      [Tally(k, t[0].count + 1)] + t[1..]
    else
      assert TallyKeys(t) == [t[0].key] + TallyKeys(t[1..]);
      [t[0]] + Bump(t[1..], k)
  }

  /** Counting one key keeps the keys distinct. */
  lemma {:induction false} BumpKeepsDistinct(t: seq<Tally>, k: string)
    requires DistinctKeys(t)
    ensures DistinctKeys(Bump(t, k))
  {
    if t != [] && t[0].key != k {
      var r := Bump(t, k);
      var rest := Bump(t[1..], k);
      BumpKeepsDistinct(t[1..], k);
      assert r[1..] == rest;
      assert forall i | 0 < i < |r| :: r[i].key != t[0].key;
    }
  }

  /** Counting one key adds one to the total. */
  lemma {:induction false} BumpAddsOne(t: seq<Tally>, k: string)
    requires DistinctKeys(t)
    ensures Total(Bump(t, k)) == Total(t) + 1
  {
    if t != [] {
      var r := Bump(t, k);
      if t[0].key == k {
        assert r[1..] == t[1..];
      } else {
        BumpAddsOne(t[1..], k);
        assert r[1..] == Bump(t[1..], k);
      }
    }
  }

  /** Index of the first occurrence of `k` in `ks`. */
  function FirstIndex(ks: seq<string>, k: string): (n: nat)
    requires k in ks
    ensures n < |ks| && ks[n] == k
  {
    if ks[0] == k then 0 else 1 + FirstIndex(ks[1..], k)
  }

  lemma {:induction false} FirstIndexSnoc(ks: seq<string>, x: string, k: string)
    requires k in ks
    ensures FirstIndex(ks + [x], k) == FirstIndex(ks, k)
  {
    if ks[0] != k {
      assert (ks + [x])[1..] == ks[1..] + [x];
      FirstIndexSnoc(ks[1..], x, k);
    }
  }

  lemma {:induction false} FirstIndexOfNew(ks: seq<string>, x: string)
    requires x !in ks
    ensures FirstIndex(ks + [x], x) == |ks|
  {
    if ks != [] {
      assert (ks + [x])[1..] == ks[1..] + [x];
      FirstIndexOfNew(ks[1..], x);
    }
  }

  /** The tally of `ks` built one key at a time, as the scan loop does. */
  function TallyOf(ks: seq<string>): (r: seq<Tally>)
    ensures DistinctKeys(r)
    ensures Total(r) == |ks|
  {
    if ks == [] then []
    else
      var t := TallyOf(ks[..|ks| - 1]);
      BumpKeepsDistinct(t, ks[|ks| - 1]);
      BumpAddsOne(t, ks[|ks| - 1]);
      Bump(t, ks[|ks| - 1])
  }

  /** Each key of the tally counts its occurrences in `ks`. */
  ghost predicate CountsOccurrences(ks: seq<string>, r: seq<Tally>)
  {
    forall i | 0 <= i < |r| :: r[i].count == multiset(ks)[r[i].key]
  }

  /** The tally's keys are exactly the values in `ks`. */
  ghost predicate HasKeysOf(ks: seq<string>, r: seq<Tally>)
  {
    forall k :: k in TallyKeys(r) <==> k in ks
  }

  /** The tally's keys are in order of first occurrence in `ks`. */
  ghost predicate FirstSeenOrder(ks: seq<string>, r: seq<Tally>)
  {
    forall i, j | 0 <= i < j < |r| && r[i].key in ks && r[j].key in ks ::
      FirstIndex(ks, r[i].key) < FirstIndex(ks, r[j].key)
  }

  /** The tally of `ks` holds each value of `ks` once, with its number of
      occurrences, in order of first occurrence. */
  lemma {:induction false} TallyOfSpec(ks: seq<string>)
    ensures CountsOccurrences(ks, TallyOf(ks))
    ensures HasKeysOf(ks, TallyOf(ks))
    ensures FirstSeenOrder(ks, TallyOf(ks))
  {
    if ks != [] {
      var front := ks[..|ks| - 1];
      var x := ks[|ks| - 1];
      assert ks == front + [x];
      TallyOfSpec(front);
      var t := TallyOf(front);
      var r := Bump(t, x);
      TallyStepKeys(front, x, t, r);
      TallyStepCounts(front, x, t, r);
      TallyStepOrder(front, x, t, r);
    }
  }

  /** Every key of a tally built from `front` occurs in `front`. */
  lemma KeysOccur(front: seq<string>, t: seq<Tally>)
    requires HasKeysOf(front, t)
    ensures forall i | 0 <= i < |t| :: t[i].key in front
  {
    forall i | 0 <= i < |t|
      ensures t[i].key in front
    {
      assert TallyKeys(t)[i] == t[i].key;
    }
  }

  lemma TallyStepKeys(front: seq<string>, x: string, t: seq<Tally>, r: seq<Tally>)
    requires DistinctKeys(t)
    requires HasKeysOf(front, t)
    requires r == Bump(t, x)
    ensures HasKeysOf(front + [x], r)
  {
    if x in TallyKeys(t) {
      assert TallyKeys(r) == TallyKeys(t);
    } else {
      assert TallyKeys(r) == TallyKeys(t) + [x];
    }
  }

  lemma TallyStepCounts(front: seq<string>, x: string, t: seq<Tally>, r: seq<Tally>)
    requires DistinctKeys(t)
    requires CountsOccurrences(front, t)
    requires HasKeysOf(front, t)
    requires r == Bump(t, x)
    ensures CountsOccurrences(front + [x], r)
  {
    var m := multiset(front + [x]);
    assert m == multiset(front) + multiset{x};
    forall i | 0 <= i < |r|
      ensures r[i].count == m[r[i].key]
    {
      if i < |t| {
        assert t[i].count == multiset(front)[t[i].key];
      } else {
        assert x !in TallyKeys(t);
        assert multiset(front)[x] == 0;
      }
    }
  }

  lemma TallyStepOrder(front: seq<string>, x: string, t: seq<Tally>, r: seq<Tally>)
    requires DistinctKeys(t)
    requires HasKeysOf(front, t)
    requires FirstSeenOrder(front, t)
    requires r == Bump(t, x)
    ensures FirstSeenOrder(front + [x], r)
  {
    var ks := front + [x];
    KeysOccur(front, t);
    if x !in TallyKeys(t) {
      FirstIndexOfNew(front, x);
    }
    forall i, j | 0 <= i < j < |r| && r[i].key in ks && r[j].key in ks
      ensures FirstIndex(ks, r[i].key) < FirstIndex(ks, r[j].key)
    {
      assert r[i].key == t[i].key;
      FirstIndexSnoc(front, x, r[i].key);
      if j < |t| {
        assert r[j].key == t[j].key;
        FirstIndexSnoc(front, x, r[j].key);
      }
    }
  }

  lemma {:induction false} TotalAppend(a: seq<Tally>, b: seq<Tally>)
    ensures Total(a + b) == Total(a) + Total(b)
  {
    if a == [] {
      assert a + b == b;
    } else {
      assert (a + b)[1..] == a[1..] + b;
      TotalAppend(a[1..], b);
    }
  }

  /** Taking one element out of a tally lowers the total by its count. */
  lemma TotalRemove(b: seq<Tally>, i: nat)
    requires i < |b|
    ensures Total(b) == b[i].count + Total(b[..i] + b[i + 1..])
  {
    assert b == b[..i] + ([b[i]] + b[i + 1..]);
    TotalAppend(b[..i], [b[i]] + b[i + 1..]);
    TotalAppend(b[..i], b[i + 1..]);
    assert ([b[i]] + b[i + 1..])[1..] == b[i + 1..];
  }

  /** Reordering a tally does not change its total. */
  lemma {:induction false} TotalPermutation(a: seq<Tally>, b: seq<Tally>)
    requires multiset(a) == multiset(b)
    ensures Total(a) == Total(b)
    decreases |a|
  {
    if a == [] {
      assert |multiset(b)| == 0;
    } else {
      var x := a[0];
      assert x in multiset(b);
      var i :| 0 <= i < |b| && b[i] == x;
      var rest := b[..i] + b[i + 1..];
      TotalRemove(b, i);
      assert b == b[..i] + [x] + b[i + 1..];
      assert multiset(b) == multiset(b[..i]) + multiset{x} + multiset(b[i + 1..]);
      assert multiset(rest) == multiset(b[..i]) + multiset(b[i + 1..]);
      assert a == [x] + a[1..];
      assert multiset(a) == multiset{x} + multiset(a[1..]);
      assert multiset(a[1..]) == multiset(a) - multiset{x};
      assert multiset(rest) == multiset(b) - multiset{x};
      TotalPermutation(a[1..], rest);
    }
  }

  // ---------------------------------------------------------------------
  // getAPIStatistics
  // ---------------------------------------------------------------------

  /** The integer part of `getAPIStatistics`: the number of categories, the
      declared total, the auth and CORS tallies ordered by count, and the
      number of HTTPS entries. */
  datatype Stats = Stats(
    categories: nat,
    declaredTotal: int,
    auth: seq<Tally>,
    httpsCount: nat,
    cors: seq<Tally>)

  function AuthsOf(es: seq<Entry>): seq<string>
  {
    seq(|es|, i requires 0 <= i < |es| => es[i].auth)
  }

  function CorsOf(es: seq<Entry>): seq<string>
  {
    seq(|es|, i requires 0 <= i < |es| => es[i].cors)
  }

  /** `if (api.HTTPS) httpsCount++` over the scan. */
  function HttpsCount(es: seq<Entry>): (n: nat)
    ensures n <= |es|
  {
    if es == [] then 0
    else HttpsCount(es[..|es| - 1]) + (if es[|es| - 1].https then 1 else 0)
  }

  /** The HTTPS counter agrees with the HTTPS filter's matches. */
  lemma {:induction false} HttpsCountIsMatches(es: seq<Entry>)
    ensures HttpsCount(es) == |Search.Matching(es, Search.HttpsIs(true))|
  {
    if es != [] {
      HttpsCountIsMatches(es[..|es| - 1]);
    }
  }

  function ByCount(t: Tally): int
  {
    t.count
  }

  function SortTally(t: seq<Tally>): (r: seq<Tally>)
    ensures multiset(r) == multiset(t)
    ensures SortedDesc(r, ByCount)
    ensures Total(r) == Total(t)
    ensures forall k :: WithKey(r, ByCount, k) == WithKey(t, ByCount, k)
  {
    var r := SortDesc(t, ByCount);
    TotalPermutation(r, t);
    r
  }

  /** `getAPIStatistics()` without the percentages. Each auth (and CORS)
      value of the scanned entries appears once with its number of entries,
      ordered by non-increasing count, values with equal counts keeping the
      order in which they were first met; the per-auth counts add up to the
      number of entries, while the reported total is the sum of the declared
      `count` fields. */
  function ApiStatistics(cat: Catalog): (r: Stats)
    ensures r.categories == |cat|
    ensures r.declaredTotal == DeclaredTotal(cat)
    ensures r.httpsCount == |Search.AllMatching(cat, Search.HttpsIs(true))|
    ensures SortedDesc(r.auth, ByCount) && SortedDesc(r.cors, ByCount)
    ensures Total(r.auth) == |AllEntries(cat)| && Total(r.cors) == |AllEntries(cat)|
    ensures forall x | x in r.auth :: x.count == multiset(AuthsOf(AllEntries(cat)))[x.key]
    ensures forall x | x in r.cors :: x.count == multiset(CorsOf(AllEntries(cat)))[x.key]
    ensures multiset(r.auth) == multiset(TallyOf(AuthsOf(AllEntries(cat))))
    ensures multiset(r.cors) == multiset(TallyOf(CorsOf(AllEntries(cat))))
    ensures forall k :: WithKey(r.auth, ByCount, k) == WithKey(TallyOf(AuthsOf(AllEntries(cat))), ByCount, k)
    ensures forall k :: WithKey(r.cors, ByCount, k) == WithKey(TallyOf(CorsOf(AllEntries(cat))), ByCount, k)
  {
    var es := AllEntries(cat);
    var auth := TallyOf(AuthsOf(es));
    var cors := TallyOf(CorsOf(es));
    HttpsCountIsMatches(es);
    TallyOfSpec(AuthsOf(es));
    TallyOfSpec(CorsOf(es));
    var r := Stats(|cat|, DeclaredTotal(cat), SortTally(auth), HttpsCount(es), SortTally(cors));
    assert forall x | x in r.auth :: x in multiset(auth);
    assert forall x | x in r.cors :: x in multiset(cors);
    r
  }

  // ---------------------------------------------------------------------
  // analyzeAuthRequirements
  // ---------------------------------------------------------------------

  /** How many example names each auth type keeps. */
  const MaxExamples := 5

  /** One auth type: how many entries use it and the first names seen. */
  datatype AuthGroup = AuthGroup(auth: string, count: nat, examples: seq<string>)

  function Tallies(g: seq<AuthGroup>): seq<Tally>
  {
    seq(|g|, i requires 0 <= i < |g| => Tally(g[i].auth, g[i].count))
  }

  /** One more entry of this auth type: count it, and keep its name while
      fewer than five are kept. */
  function Grow(x: AuthGroup, name: string): (r: AuthGroup)
    ensures r.auth == x.auth && r.count == x.count + 1
    ensures x.examples <= r.examples && |r.examples| <= |x.examples| + 1
    ensures |x.examples| <= MaxExamples ==> |r.examples| <= MaxExamples
    ensures name in r.examples <==> name in x.examples || |x.examples| < MaxExamples
  {
    x.(count := x.count + 1,
       examples := if |x.examples| < MaxExamples then x.examples + [name] else x.examples)
  }

  /** One iteration of the analysis loop. */
  function Record(g: seq<AuthGroup>, e: Entry): (r: seq<AuthGroup>)
    requires DistinctKeys(Tallies(g))
    ensures e.auth in TallyKeys(Tallies(g)) ==> |r| == |g|
    ensures e.auth !in TallyKeys(Tallies(g)) ==> r == g + [AuthGroup(e.auth, 1, [e.api])]
    ensures forall i | 0 <= i < |g| :: r[i] == (if g[i].auth == e.auth then Grow(g[i], e.api) else g[i])
  {
    var t := Tallies(g);
    if g == [] then [AuthGroup(e.auth, 1, [e.api])]
    else if g[0].auth == e.auth then
      assert TallyKeys(t)[0] == e.auth;
      assert forall i | 0 < i < |g| :: t[i].key == g[i].auth && t[0].key != t[i].key;
      [Grow(g[0], e.api)] + g[1..]
    else
      assert TallyKeys(t) == [g[0].auth] + TallyKeys(Tallies(g[1..]));
      assert t == [t[0]] + Tallies(g[1..]);
      assert Tallies(g[1..]) == t[1..];
      DistinctKeysTail(t);
      var rest := Record(g[1..], e);
      [g[0]] + rest
  }

  /** Counting the groups' entries is counting auth types: one analysed
      entry bumps the tally of its auth type. */
  lemma RecordTallies(g: seq<AuthGroup>, e: Entry)
    requires DistinctKeys(Tallies(g))
    ensures Tallies(Record(g, e)) == Bump(Tallies(g), e.auth)
  {
    var r := Record(g, e);
    var t := Tallies(g);
    var b := Bump(t, e.auth);
    assert |Tallies(r)| == |b|;
    forall i | 0 <= i < |b|
      ensures Tallies(r)[i] == b[i]
    {
      if i < |g| {
        assert t[i] == Tally(g[i].auth, g[i].count);
      }
    }
  }

  /** The names of the entries with auth type `a`, in scan order. */
  function NamesWithAuth(es: seq<Entry>, a: string): seq<string>
  {
    if es == [] then []
    else NamesWithAuth(es[..|es| - 1], a) + (if es[|es| - 1].auth == a then [es[|es| - 1].api] else [])
  }

  /** The first `MaxExamples` of `names`. */
  function FirstExamples(names: seq<string>): seq<string>
  {
    names[..Min(MaxExamples, |names|)]
  }

  lemma {:induction false} NamesWithAuthCount(es: seq<Entry>, a: string)
    ensures |NamesWithAuth(es, a)| == multiset(AuthsOf(es))[a]
  {
    if es != [] {
      var front := es[..|es| - 1];
      assert AuthsOf(es) == AuthsOf(front) + [es[|es| - 1].auth];
      NamesWithAuthCount(front, a);
    }
  }

  /** The analysis loop over the scanned entries. Counting the groups'
      entries is tallying the entries' auth types. */
  function Groups(es: seq<Entry>): (r: seq<AuthGroup>)
    ensures Tallies(r) == TallyOf(AuthsOf(es))
  {
    if es == [] then
      assert AuthsOf(es) == [];
      []
    else
      assert AuthsOf(es) == AuthsOf(es[..|es| - 1]) + [es[|es| - 1].auth];
      RecordTallies(Groups(es[..|es| - 1]), es[|es| - 1]);
      Record(Groups(es[..|es| - 1]), es[|es| - 1])
  }

  /** Each group keeps as examples the first (at most five) names carrying
      its auth type, in scan order. */
  lemma {:induction false} GroupsExamples(es: seq<Entry>)
    ensures forall i | 0 <= i < |Groups(es)| ::
              Groups(es)[i].examples == FirstExamples(NamesWithAuth(es, Groups(es)[i].auth))
  {
    if es != [] {
      var front := es[..|es| - 1];
      var e := es[|es| - 1];
      assert front + [e] == es;
      var g := Groups(front);
      assert Groups(es) == Record(g, e);
      GroupsExamples(front);
      GroupsStepExamples(front, e, g, Groups(es));
    }
  }

  lemma FirstExamplesSnoc(names: seq<string>, name: string)
    ensures FirstExamples(names + [name])
            == if |FirstExamples(names)| < MaxExamples then FirstExamples(names) + [name]
               else FirstExamples(names)
  {
  }

  lemma TallyOfKeys(ks: seq<string>)
    ensures HasKeysOf(ks, TallyOf(ks))
  {
    TallyOfSpec(ks);
  }

  lemma TallyOfCounts(ks: seq<string>)
    ensures CountsOccurrences(ks, TallyOf(ks))
  {
    TallyOfSpec(ks);
  }

  lemma NamesWithAuthSnoc(front: seq<Entry>, e: Entry, a: string)
    ensures NamesWithAuth(front + [e], a)
            == NamesWithAuth(front, a) + (if e.auth == a then [e.api] else [])
  {
    assert (front + [e])[..|front|] == front;
  }

  /** An auth type not yet tallied has no names so far. */
  lemma UnseenAuthHasNoNames(front: seq<Entry>, a: string)
    requires a !in TallyKeys(TallyOf(AuthsOf(front)))
    ensures NamesWithAuth(front, a) == []
  {
    TallyOfKeys(AuthsOf(front));
    NamesWithAuthCount(front, a);
  }

  /** One more entry keeps the examples of every group equal to the first
      names carrying its auth type. */
  lemma GroupsStepExamples(front: seq<Entry>, e: Entry, g: seq<AuthGroup>, r: seq<AuthGroup>)
    requires Tallies(g) == TallyOf(AuthsOf(front))
    requires DistinctKeys(Tallies(g))
    requires forall i | 0 <= i < |g| :: g[i].examples == FirstExamples(NamesWithAuth(front, g[i].auth))
    requires r == Record(g, e)
    ensures forall i | 0 <= i < |r| :: r[i].examples == FirstExamples(NamesWithAuth(front + [e], r[i].auth))
  {
    forall i | 0 <= i < |r|
      ensures r[i].examples == FirstExamples(NamesWithAuth(front + [e], r[i].auth))
    {
      NamesWithAuthSnoc(front, e, r[i].auth);
      if i < |g| {
        if g[i].auth == e.auth {
          FirstExamplesSnoc(NamesWithAuth(front, e.auth), e.api);
        }
      } else {
        UnseenAuthHasNoNames(front, e.auth);
      }
    }
  }

  function GroupCount(x: AuthGroup): int
  {
    x.count
  }

  /** Every group counts the entries with its auth type and keeps the first
      (at most five) of their names. */
  lemma GroupsDescribeAuths(es: seq<Entry>)
    ensures forall x | x in Groups(es) ::
      && x.count == |NamesWithAuth(es, x.auth)|
      && x.examples == FirstExamples(NamesWithAuth(es, x.auth))
  {
    var g := Groups(es);
    TallyOfCounts(AuthsOf(es));
    GroupsExamples(es);
    forall x | x in g
      ensures x.count == |NamesWithAuth(es, x.auth)|
    {
      var i :| 0 <= i < |g| && g[i] == x;
      assert Tallies(g)[i] == Tally(x.auth, x.count);
      NamesWithAuthCount(es, x.auth);
    }
  }

  /** There is a group for exactly the auth types that occur. */
  lemma GroupsCoverAuths(es: seq<Entry>)
    ensures forall a :: a in AuthsOf(es) <==> exists x | x in Groups(es) :: x.auth == a
  {
    var g := Groups(es);
    var t := Tallies(g);
    TallyOfKeys(AuthsOf(es));
    forall a
      ensures a in AuthsOf(es) <==> exists x | x in g :: x.auth == a
    {
      if a in AuthsOf(es) {
        var i :| 0 <= i < |t| && TallyKeys(t)[i] == a;
        assert g[i] in g;
      }
      if exists x | x in g :: x.auth == a {
        var x :| x in g && x.auth == a;
        var j :| 0 <= j < |g| && g[j] == x;
        assert TallyKeys(t)[j] == a;
      }
    }
  }

  /** `analyzeAuthRequirements()` without the percentages: one group per auth
      type seen, carrying its number of entries and the first (at most five)
      names in scan order, ordered by non-increasing count with ties in
      first-seen order. */
  function AuthAnalysis(cat: Catalog): (r: seq<AuthGroup>)
    ensures SortedDesc(r, GroupCount)
    ensures forall x | x in r ::
      && x.count == |NamesWithAuth(AllEntries(cat), x.auth)|
      && x.examples == FirstExamples(NamesWithAuth(AllEntries(cat), x.auth))
      && |x.examples| <= MaxExamples
    ensures forall a :: a in AuthsOf(AllEntries(cat)) <==> exists x | x in r :: x.auth == a
    ensures multiset(r) == multiset(Groups(AllEntries(cat)))
    ensures forall k :: WithKey(r, GroupCount, k) == WithKey(Groups(AllEntries(cat)), GroupCount, k)
  {
    var es := AllEntries(cat);
    var g := Groups(es);
    var r := SortDesc(g, GroupCount);
    GroupsDescribeAuths(es);
    GroupsCoverAuths(es);
    assert forall x :: x in r <==> x in g by {
      forall x
        ensures x in r <==> x in g
      {
        assert x in r <==> x in multiset(r);
        assert x in g <==> x in multiset(g);
      }
    }
    r
  }
}

=== FILE: sync.dfy ===
/** The freshness state machine of src/services/api-service.ts: the service
    holds a catalog and the time of the last successful load; a sync that
    starts after a successful load reloads the whole catalog at most once an
    hour unless forced, and a failed download keeps everything as it was.
    Each sync finishes before the next starts. The download and the clock are
    parameters. */
module Sync {
  import opened Wrappers
  import opened Catalog

  /** One hour in milliseconds: a load younger than this is fresh. */
  const FreshWindow: int := 3600000

  /** `(apiDatabase, lastSync)`; times are milliseconds since the epoch. */
  datatype SyncState = SyncState(db: Catalog, lastSync: Option<int>)

  /** The state of a newly constructed service: an empty catalog, never
      synced. */
  const Initial: SyncState := SyncState([], None)

  /** What `loadApiData` produced, a catalog or `null`; a catalog comes with
      the clock reading that `syncRepositoryData` takes (`new Date()`) once
      `loadApiData` has returned. */
  datatype Fetch = Fetched(data: Catalog, at: int) | Failed

  /** The message of `syncRepositoryData`: fresh data, a successful load with
      the number of categories and the declared total, or a failed load. */
  datatype Message = AlreadyFresh | Loaded(categories: nat, declaredTotal: int) | LoadFailed

  /** The new state, the `success` flag, the message, and whether the
      download was attempted. */
  datatype SyncResult = SyncResult(state: SyncState, success: bool, message: Message, fetched: bool)

  /** The last load is younger than an hour. */
  predicate Fresh(s: SyncState, now: int)
  {
    s.lastSync.Some? && now - s.lastSync.value < FreshWindow
  }

  /** `syncRepositoryData(force)` at clock reading `now`; `fetch` is what the
      download would return. The download is attempted exactly when forced,
      never synced, or the last load is an hour old or older. A fresh state
      is kept with success; a successful download replaces the catalog
      wholesale and stamps it; a failed one keeps the state and reports
      failure. */
  function SyncRepository(s: SyncState, force: bool, now: int, fetch: Fetch): (r: SyncResult)
    ensures r.fetched <==> force || s.lastSync.None? || now - s.lastSync.value >= FreshWindow
    ensures !r.fetched ==> r.state == s && r.success && r.message == AlreadyFresh
    ensures r.fetched && fetch.Failed? ==> r.state == s && !r.success && r.message == LoadFailed
    ensures r.fetched && fetch.Fetched? ==>
              && r.state == SyncState(fetch.data, Some(fetch.at))
              && r.success
              && r.message == Loaded(|Keys(fetch.data)|, DeclaredTotal(fetch.data))
    ensures r.state == s || (fetch.Fetched? && r.state == SyncState(fetch.data, Some(fetch.at)))
  {
    if !force && Fresh(s, now) then SyncResult(s, true, AlreadyFresh, false)
    else
      match fetch
      case Fetched(data, at) =>
        SyncResult(SyncState(data, Some(at)), true, Loaded(|Keys(data)|, DeclaredTotal(data)), true)
      case Failed =>
        SyncResult(s, false, LoadFailed, true)
  }

  /** What `ensureDataSynced` did: the new state, and whether it called
      `syncRepositoryData(false)`, and whether that downloaded. */
  datatype Ensured = Ensured(state: SyncState, attempted: bool, fetched: bool)

  /** `ensureDataSynced()`: a non-forced sync is attempted exactly when the
      service never synced or holds no category. */
  function EnsureSynced(s: SyncState, now: int, fetch: Fetch): (r: Ensured)
    ensures r.attempted <==> s.lastSync.None? || |Keys(s.db)| == 0
    ensures !r.attempted ==> r.state == s && !r.fetched
    ensures r.attempted ==>
              r.state == SyncRepository(s, false, now, fetch).state
              && r.fetched == SyncRepository(s, false, now, fetch).fetched
  {
    if s.lastSync.None? || |Keys(s.db)| == 0 then
      var r := SyncRepository(s, false, now, fetch);
      Ensured(r.state, true, r.fetched)
    else Ensured(s, false, false)
  }

  /** Within the hour a non-forced sync downloads nothing and changes
      nothing. */
  lemma FreshSyncIsNoOp(s: SyncState, now: int, fetch: Fetch)
    requires Fresh(s, now)
    ensures var r := SyncRepository(s, false, now, fetch);
            !r.fetched && r.state == s && r.success && r.message == AlreadyFresh
  {
  }

  /** Exactly one hour after the last load the data is stale again. */
  lemma StaleAfterExactlyOneHour(db: Catalog, last: int, fetch: Fetch)
    ensures SyncRepository(SyncState(db, Some(last)), false, last + FreshWindow, fetch).fetched
  {
  }

  /** A forced sync downloads whatever the age of the data. */
  lemma ForcedSyncFetches(s: SyncState, now: int, fetch: Fetch)
    ensures SyncRepository(s, true, now, fetch).fetched
  {
  }

  /** A sync that follows a successful load within the hour, unforced,
      downloads nothing: at most one download per hour. */
  lemma AtMostOneLoadPerHour(s: SyncState, force: bool, now1: int, data: Catalog, at: int,
                             now2: int, fetch2: Fetch)
    requires SyncRepository(s, force, now1, Fetched(data, at)).fetched
    requires now2 - at < FreshWindow
    ensures var s1 := SyncRepository(s, force, now1, Fetched(data, at)).state;
            var r2 := SyncRepository(s1, false, now2, fetch2);
            !r2.fetched && r2.state == s1
  {
  }

  /** An empty catalog stays empty within the hour: `ensureDataSynced` sees
      no category and syncs, but the sync finds the data fresh. */
  lemma EmptyCatalogStaysEmpty(s: SyncState, force: bool, now1: int, at: int, now2: int, fetch2: Fetch)
    requires SyncRepository(s, force, now1, Fetched([], at)).fetched
    requires now2 - at < FreshWindow
    ensures var s1 := SyncRepository(s, force, now1, Fetched([], at)).state;
            var r := EnsureSynced(s1, now2, fetch2);
            r.attempted && !r.fetched && r.state.db == []
  {
  }

  /** A service that was never synced downloads on first use, whatever the
      clock says, and takes over what arrived, or stays empty and unsynced. */
  lemma FirstUseDownloads(now: int, fetch: Fetch)
    ensures var r := EnsureSynced(Initial, now, fetch);
            && r.attempted && r.fetched
            && (fetch.Fetched? ==> r.state == SyncState(fetch.data, Some(fetch.at)))
            && (fetch.Failed? ==> r.state == Initial)
  {
  }

  /** One call of `syncRepositoryData`: the flag, the clock and the
      download's outcome. */
  datatype Call = Call(force: bool, now: int, fetch: Fetch)

  /** The state after call `i` downloaded successfully. */
  predicate LoadedBy(calls: seq<Call>, i: int, s: SyncState)
  {
    && 0 <= i < |calls|
    && calls[i].fetch.Fetched?
    && s == SyncState(calls[i].fetch.data, Some(calls[i].fetch.at))
  }

  /** The number of forced calls. */
  function ForcedCount(calls: seq<Call>): nat
  {
    if calls == [] then 0
    else ForcedCount(calls[..|calls| - 1]) + (if calls[|calls| - 1].force then 1 else 0)
  }

  /** Runs the calls in order and counts the downloads. The catalog and its
      time stamp only ever change together: the final state is the initial
      one or exactly what one of the calls downloaded. There are at least as
      many downloads as forced calls and at most one per call. */
  method RunSyncs(s: SyncState, calls: seq<Call>) returns (final: SyncState, downloads: nat)
    ensures final == s || exists i :: LoadedBy(calls, i, final)
    ensures ForcedCount(calls) <= downloads <= |calls|
    ensures (forall i | 0 <= i < |calls| :: calls[i].fetch.Failed?) ==> final == s
  {
    final := s;
    downloads := 0;
    var k := 0;
    while k < |calls|
      invariant 0 <= k <= |calls|
      invariant ForcedCount(calls[..k]) <= downloads <= k
      invariant final == s || exists i | 0 <= i < k :: LoadedBy(calls, i, final)
      invariant (forall i | 0 <= i < k :: calls[i].fetch.Failed?) ==> final == s
    {
      var r := SyncRepository(final, calls[k].force, calls[k].now, calls[k].fetch);
      if r.state != final {
        assert LoadedBy(calls, k, r.state);
      }
      final := r.state;
      if r.fetched {
        downloads := downloads + 1;
      }
      assert calls[..k + 1][..k] == calls[..k];
      k := k + 1;
    }
    assert calls[..k] == calls;
  }
}

=== FILE: text.dfy ===
/** The JavaScript string operations the services rely on: `toLowerCase`,
    `includes`, `split(/\s+/)` and the default string order of `sort()`. */
module Text {

  /** `toLowerCase` on one character, restricted to ASCII: A-Z become a-z and
      every other character (the Chinese table labels included) is kept. */
  function LowerChar(c: char): char
  {
    if 'A' <= c <= 'Z' then (c as int + 32) as char else c
  }

  /** `String.prototype.toLowerCase` with ASCII case mapping. */
  function Lower(s: string): (r: string)
    ensures |r| == |s|
    ensures forall i | 0 <= i < |r| :: !('A' <= r[i] <= 'Z')
    ensures forall i | 0 <= i < |s| :: !('A' <= s[i] <= 'Z') ==> r[i] == s[i]
    ensures forall i | 0 <= i < |s| :: 'A' <= s[i] <= 'Z' ==> r[i] as int == s[i] as int + 32
  {
    seq(|s|, i requires 0 <= i < |s| => LowerChar(s[i]))
  }

  lemma LowerAppend(a: string, b: string)
    ensures Lower(a + b) == Lower(a) + Lower(b)
  {
  }

  /** `s.includes(t)`: `t` occurs in `s` as a contiguous block. The empty
      string occurs in every string. */
  predicate Contains(s: string, t: string): (b: bool)
    ensures b ==> |t| <= |s|
    decreases |s|
  {
    t <= s || (|s| > 0 && Contains(s[1..], t))
  }

  /** `t` occurs in `s` starting at index `i`. */
  predicate OccursAt(s: string, t: string, i: int)
  {
    0 <= i && i + |t| <= |s| && s[i..i + |t|] == t
  }

  /** The recursive definition of `Contains` agrees with the positional one:
      some index of `s` starts a copy of `t`. */
  lemma {:induction false} ContainsIffOccurs(s: string, t: string)
    ensures Contains(s, t) <==> exists i :: OccursAt(s, t, i)
    decreases |s|
  {
    if t <= s {
      assert OccursAt(s, t, 0);
    } else if |s| == 0 {
      assert forall i :: !OccursAt(s, t, i);
    } else {
      ContainsIffOccurs(s[1..], t);
      if Contains(s[1..], t) {
        var i :| OccursAt(s[1..], t, i);
        assert s[i + 1..i + 1 + |t|] == s[1..][i..i + |t|];
        assert OccursAt(s, t, i + 1);
      }
      if exists i :: OccursAt(s, t, i) {
        var i :| OccursAt(s, t, i);
        assert s[1..][i - 1..i - 1 + |t|] == s[i..i + |t|];
        assert OccursAt(s[1..], t, i - 1);
      }
    }
  }

  lemma EmptyIsContained(s: string)
    ensures Contains(s, "")
  {
  }

  /** The characters matched by the regular expression class `\s`: the
      ECMAScript WhiteSpace and LineTerminator code points. */
  predicate IsSpace(c: char)
  {
    var n := c as int;
    || n == 0x09 || n == 0x0A || n == 0x0B || n == 0x0C || n == 0x0D
    || n == 0x20 || n == 0xA0 || n == 0x1680
    || (0x2000 <= n <= 0x200A)
    || n == 0x2028 || n == 0x2029 || n == 0x202F || n == 0x205F
    || n == 0x3000 || n == 0xFEFF
  }

  /** `s` holds no whitespace character. */
  predicate NoSpace(s: string)
  {
    forall i | 0 <= i < |s| :: !IsSpace(s[i])
  }

  /** Length of the longest prefix of `s` that holds no whitespace. */
  function WordLength(s: string): (n: nat)
    ensures n <= |s|
    ensures forall i | 0 <= i < n :: !IsSpace(s[i])
    ensures n < |s| ==> IsSpace(s[n])
  {
    if s == [] || IsSpace(s[0]) then 0 else 1 + WordLength(s[1..])
  }

  /** Length of the longest prefix of `s` that is all whitespace. */
  function SpaceLength(s: string): (n: nat)
    ensures n <= |s|
    ensures forall i | 0 <= i < n :: IsSpace(s[i])
    ensures n < |s| ==> !IsSpace(s[n])
  {
    if s == [] || !IsSpace(s[0]) then 0 else 1 + SpaceLength(s[1..])
  }

  /** `s.split(/\s+/)`: the pieces between maximal whitespace runs. Leading
      or trailing whitespace yields an empty first or last piece, and the
      empty string splits into one empty piece. */
  function Tokens(s: string): (r: seq<string>)
    ensures |r| >= 1
    decreases |s|
  {
    var w := WordLength(s);
    if w == |s| then [s]
    else
      var rest := s[w..];
      [s[..w]] + Tokens(rest[SpaceLength(rest)..])
  }

  /** `s` with every whitespace character removed. */
  function RemoveSpaces(s: string): string
  {
    if s == [] then [] else (if IsSpace(s[0]) then [] else [s[0]]) + RemoveSpaces(s[1..])
  }

  /** The pieces of a split, glued back together. */
  function Concat(ts: seq<string>): string
  {
    if ts == [] then [] else ts[0] + Concat(ts[1..])
  }

  /** No piece of a split holds a whitespace character. */
  lemma {:induction false} TokensHaveNoSpace(s: string)
    ensures forall k | 0 <= k < |Tokens(s)| :: NoSpace(Tokens(s)[k])
    decreases |s|
  {
    var w := WordLength(s);
    if w < |s| {
      var rest := s[w..];
      var tail := rest[SpaceLength(rest)..];
      TokensHaveNoSpace(tail);
      assert Tokens(s) == [s[..w]] + Tokens(tail);
    }
  }

  /** Removing whitespace keeps the leading word whole. */
  lemma {:induction false} RemoveSpacesKeepsWord(s: string)
    ensures RemoveSpaces(s) == s[..WordLength(s)] + RemoveSpaces(s[WordLength(s)..])
    decreases |s|
  {
    if s != [] && !IsSpace(s[0]) {
      RemoveSpacesKeepsWord(s[1..]);
      assert s[1..][WordLength(s[1..])..] == s[WordLength(s)..];
      assert s[..WordLength(s)] == [s[0]] + s[1..][..WordLength(s[1..])];
    }
  }

  /** Removing whitespace drops the leading whitespace run. */
  lemma {:induction false} RemoveSpacesDropsRun(s: string)
    ensures RemoveSpaces(s) == RemoveSpaces(s[SpaceLength(s)..])
    decreases |s|
  {
    if s != [] && IsSpace(s[0]) {
      RemoveSpacesDropsRun(s[1..]);
      assert s[1..][SpaceLength(s[1..])..] == s[SpaceLength(s)..];
    }
  }

  /** Splitting loses exactly the whitespace: the pieces in order spell `s`
      without its whitespace. */
  lemma {:induction false} TokensRoundTrip(s: string)
    ensures Concat(Tokens(s)) == RemoveSpaces(s)
    decreases |s|
  {
    var w := WordLength(s);
    if w == |s| {
      RemoveSpacesKeepsWord(s);
      assert s[..w] == s && s[w..] == [];
      assert Concat([s]) == s + Concat([]);
    } else {
      var rest := s[w..];
      var n := SpaceLength(rest);
      var tail := rest[n..];
      TokensRoundTrip(tail);
      RemoveSpacesKeepsWord(s);
      RemoveSpacesDropsRun(rest);
      assert Tokens(s) == [s[..w]] + Tokens(tail);
      assert Concat(Tokens(s)) == s[..w] + Concat(Tokens(tail));
    }
  }

  /** The whitespace runs that `split(/\s+/)` cuts at, in order. */
  function Separators(s: string): seq<string>
    decreases |s|
  {
    var w := WordLength(s);
    if w == |s| then []
    else
      var rest := s[w..];
      var n := SpaceLength(rest);
      [rest[..n]] + Separators(rest[n..])
  }

  /** The pieces with the separators put back between them. */
  function Interleave(ts: seq<string>, seps: seq<string>): string
    requires |ts| == |seps| + 1
  {
    if seps == [] then ts[0] else ts[0] + (seps[0] + Interleave(ts[1..], seps[1..]))
  }

  /** A non-empty run of whitespace characters only. */
  predicate SpaceRun(sep: string)
  {
    |sep| >= 1 && forall i | 0 <= i < |sep| :: IsSpace(sep[i])
  }

  /** The whitespace run that follows the leading word. */
  function Gap(s: string): string
    requires WordLength(s) < |s|
  {
    var rest := s[WordLength(s)..];
    rest[..SpaceLength(rest)]
  }

  /** What follows the leading word and the run after it. */
  function After(s: string): (r: string)
    requires WordLength(s) < |s|
    ensures |r| < |s|
  {
    var rest := s[WordLength(s)..];
    rest[SpaceLength(rest)..]
  }

  /** One cut of a split: the leading word is the first piece, the
      whitespace run after it the first separator. */
  lemma CutAt(s: string)
    requires WordLength(s) < |s|
    ensures Tokens(s) == [s[..WordLength(s)]] + Tokens(After(s))
    ensures Separators(s) == [Gap(s)] + Separators(After(s))
  {
  }

  /** The run after the leading word is maximal and non-empty. */
  lemma GapIsRun(s: string)
    requires WordLength(s) < |s|
    ensures SpaceRun(Gap(s))
    ensures After(s) == [] || !IsSpace(After(s)[0])
  {
    RunAfterWord(s[WordLength(s)..]);
  }

  /** The word, the run and what follows spell the string. */
  lemma GlueCut(s: string)
    requires WordLength(s) < |s|
    ensures s == s[..WordLength(s)] + (Gap(s) + After(s))
  {
    var w := WordLength(s);
    ThreeWay(s, w, SpaceLength(s[w..]));
  }

  /** Cutting a string twice and gluing the three parts gives it back. */
  lemma ThreeWay(s: string, w: nat, n: nat)
    requires w <= |s| && n <= |s| - w
    ensures s == s[..w] + (s[w..][..n] + s[w..][n..])
  {
    assert s[w..][..n] + s[w..][n..] == s[w..];
    assert s[..w] + s[w..] == s;
  }

  /** What follows a word starts with a maximal, non-empty whitespace run. */
  lemma RunAfterWord(rest: string)
    requires rest != [] && IsSpace(rest[0])
    ensures SpaceRun(rest[..SpaceLength(rest)])
    ensures SpaceLength(rest) == |rest| || !IsSpace(rest[SpaceLength(rest)..][0])
  {
    var n := SpaceLength(rest);
    forall i | 0 <= i < n
      ensures IsSpace(rest[..n][i])
    {
      assert rest[..n][i] == rest[i];
    }
    if n < |rest| {
      assert rest[n..][0] == rest[n];
    }
  }

  /** Between two pieces of a split lies a non-empty run of whitespace. */
  lemma {:induction false} SeparatorsAreRuns(s: string)
    ensures |Separators(s)| == |Tokens(s)| - 1
    ensures forall k | 0 <= k < |Separators(s)| :: SpaceRun(Separators(s)[k])
    decreases |s|
  {
    if WordLength(s) < |s| {
      CutAt(s);
      SeparatorsAreRuns(After(s));
      forall k | 0 <= k < |Separators(s)|
        ensures SpaceRun(Separators(s)[k])
      {
        SeparatorIsRun(s, k);
      }
    }
  }

  /** The `k`-th separator is a whitespace run. */
  lemma {:induction false} SeparatorIsRun(s: string, k: nat)
    requires k < |Separators(s)|
    ensures SpaceRun(Separators(s)[k])
    decreases |s|
  {
    assert WordLength(s) < |s|;
    if k == 0 {
      CutAt(s);
      GapIsRun(s);
    } else {
      SeparatorShift(s, k);
      SeparatorIsRun(After(s), k - 1);
    }
  }

  /** Past the first cut, the separators are those of what follows. */
  lemma SeparatorShift(s: string, k: nat)
    requires WordLength(s) < |s| && 0 < k < |Separators(s)|
    ensures k - 1 < |Separators(After(s))|
    ensures Separators(s)[k] == Separators(After(s))[k - 1]
  {
    CutAt(s);
    var seps := Separators(After(s));
    assert ([Gap(s)] + seps)[k] == seps[k - 1];
  }

  /** Putting the runs back between the pieces gives back the input. */
  lemma {:induction false} TokensRejoin(s: string)
    ensures |Separators(s)| == |Tokens(s)| - 1
    ensures Interleave(Tokens(s), Separators(s)) == s
    decreases |s|
  {
    SeparatorsAreRuns(s);
    if WordLength(s) < |s| {
      CutAt(s);
      GlueCut(s);
      var tail := After(s);
      TokensRejoin(tail);
      SeparatorsAreRuns(tail);
      assert Tokens(s)[1..] == Tokens(tail);
      assert Separators(s)[1..] == Separators(tail);
    }
  }

  /** Only the first and the last piece of a split can be empty. */
  lemma {:induction false} InnerTokensNonEmpty(s: string)
    ensures forall k | 0 < k < |Tokens(s)| - 1 :: |Tokens(s)[k]| >= 1
    decreases |s|
  {
    if WordLength(s) < |s| {
      CutAt(s);
      GapIsRun(s);
      var tail := After(s);
      InnerTokensNonEmpty(tail);
      FirstTokenNonEmpty(tail);
      forall k | 0 < k < |Tokens(s)| - 1
        ensures |Tokens(s)[k]| >= 1
      {
        assert Tokens(s)[k] == Tokens(tail)[k - 1];
      }
    }
  }

  /** A string that does not start with whitespace but contains some has a
      non-empty first piece. */
  lemma FirstTokenNonEmpty(t: string)
    requires t == [] || !IsSpace(t[0])
    ensures |Tokens(t)| >= 2 ==> |Tokens(t)[0]| >= 1
  {
    if |Tokens(t)| >= 2 {
      assert WordLength(t) < |t|;
    }
  }

  /** The order of `Array.prototype.sort()` without a comparator on strings:
      lexicographic by character, a proper prefix coming first. */
  predicate StrLe(a: string, b: string)
  {
    if a == [] then true
    else if b == [] then false
    else if a[0] != b[0] then a[0] < b[0]
    else StrLe(a[1..], b[1..])
  }

  lemma StrLeTotal(a: string, b: string)
    ensures StrLe(a, b) || StrLe(b, a)
  {
  }

  lemma StrLeTransitive(a: string, b: string, c: string)
    requires StrLe(a, b) && StrLe(b, c)
    ensures StrLe(a, c)
  {
  }
}

=== FILE: wrappers.dfy ===
/** The optional value used wherever the services return `undefined`/`null`
    or find nothing. */
module Wrappers {

  datatype Option<+T> = None | Some(value: T)
}
